=== FILE: README.md ===
# Ticketing ledger

A model of the `Ticketing` contract of the ticketing dapp. The contract records events and tickets on a
shared ledger, and every ticket is an ERC-721 token whose id is the ticket id. Anyone may create an event.
Its creator becomes the organizer and is minted an ORGANIZER ticket with URI `organizer-<id>.json`.

- Attendees take STANDARD tickets for themselves, hold at most one ticket per event, use their ticket
  once, and may resell a STANDARD ticket to someone who holds none for that event.
- The organizer issues VIP and STAFF tickets, re-types tickets (never to or from ORGANIZER), removes
  (burns) VIP and STAFF tickets, updates the event's metadata until its end date, and cancels the event.
  A cancelled event freezes every operation aimed at it.
- Direct ERC-721 transfers always revert.

The Solidity source of the contract is not part of this model. Its behaviour is fixed here by the
contract's test suite, `ticketing-backend/test/Ticketing.ts`: the reasons it expects, the storage it
reads back, the token URIs, owners and emitted records.

The project has seven modules.

- `Domain` (`domain.dfy`) holds:
  - the ticket-type enum and its ABI decoding, in which an out-of-range code reverts;
  - event and ticket records and the emitted records;
  - revert reasons;
  - the decimal rendering behind the organizer-ticket URI.
- `Ledger` (`ledger.dfy`) holds:
  - storage as a value: two counters, the event and ticket tables, the ERC-721 owner and URI maps, and the
    `ticketIdByEventAndOwner` index;
  - the storage invariant `Valid`;
  - one function per public operation, returning what the call reports and the storage it leaves;
  - `Apply`, which dispatches a `Call`.
- `Invariant` (`invariant.dfy`) proves that every operation keeps `Valid`. `Valid` states:
  - ids are dense;
  - exactly the live tokens are indexed;
  - every event's organizer holds its one ORGANIZER ticket.
- `Properties` (`properties.dfy`) holds what each operation does when it succeeds, which reason it reports
  when it reverts, and what cancellation and the invariant imply.
- `History` (`history.dfy`) holds facts about sequences of calls:
  - write-once and one-way fields;
  - burned ids are never re-minted;
  - ownership changes only by resale;
  - every reachable state is valid.
- `Contract` (`ticketing.dfy`) is the contract as a class. Its storage fields are updated in place, with
  one method per operation that checks in order and returns on the first failure. Each method is proved
  to equal the `Ledger` function and to keep the invariant.
- `Scenarios` (`scenarios.dfy`) restates the test cases. Most are methods on the class: each starts from
  the suite's fixture (one event, "Concert A", created by `Owner`), makes the calls the test makes, and
  asserts the expected outcomes. Three test cases are lemmas over storage values instead.

## Model

| member | source | states |
|---|---|---|
| Domain.DecodeTicketType | ticketing-backend/test/Ticketing.ts:5-11 | codes 0..3 decode to STANDARD, VIP, STAFF, ORGANIZER and every other code (such as 99) is rejected; decoding inverts the ABI encoding |
| Domain.DecodeEncode | ticketing-backend/test/Ticketing.ts:5-11 | every ticket type survives the encode/decode round trip |
| Domain.DecimalRoundTrip | ticketing-backend/test/Ticketing.ts:46-59 | the decimal string used in organizer URIs reads back as the number it renders |
| Invariant.DeployedValid | ticketing-backend/test/Ticketing.ts:29-43 | a freshly deployed contract satisfies the storage invariant |
| Invariant.CreateEventPreservesValid | ticketing-backend/test/Ticketing.ts:45-84 | createEvent keeps the storage invariant, success or revert |
| Invariant.UpdateEventMetadataPreservesValid | ticketing-backend/test/Ticketing.ts:86-127 | updateEventMetadata keeps the storage invariant |
| Invariant.CancelEventPreservesValid | ticketing-backend/test/Ticketing.ts:129-163 | cancelEvent keeps the storage invariant |
| Invariant.CreateTicketPreservesValid | ticketing-backend/test/Ticketing.ts:165-252 | createTicket keeps the storage invariant: at most one ticket per event and owner, one ORGANIZER ticket per event |
| Invariant.CreateTicketForPreservesValid | ticketing-backend/test/Ticketing.ts:254-291 | createTicketFor keeps the storage invariant |
| Invariant.UpdateTicketTypePreservesValid | ticketing-backend/test/Ticketing.ts:293-383 | updateTicketType keeps the storage invariant, so the organizer ticket stays ORGANIZER |
| Invariant.ResellTicketPreservesValid | ticketing-backend/test/Ticketing.ts:385-467 | resellTicket keeps the storage invariant, so index and token owner move together |
| Invariant.RemoveTicketPreservesValid | ticketing-backend/test/Ticketing.ts:515-590 | removeTicket keeps the storage invariant, with the burned token out of the index |
| Invariant.UseTicketPreservesValid | ticketing-backend/test/Ticketing.ts:469-513 | useTicket keeps the storage invariant |
| Invariant.ApplyPreservesValid | ticketing-backend/test/Ticketing.ts:13-689 | every public call keeps the storage invariant |
| Properties.IndexMatchesOwnership | ticketing-backend/test/Ticketing.ts:398-406 | in a valid state, index entry (e, a) is ticket t exactly when a owns the live token t and t belongs to event e |
| Properties.AtMostOneTicketPerEventAndOwner | ticketing-backend/test/Ticketing.ts:196-204 | no address owns two live tickets for the same event |
| Properties.OneOrganizerTicketPerEvent | ticketing-backend/test/Ticketing.ts:177-187 | an event's ORGANIZER ticket is unique: it is exactly the ticket its organizer holds in the index |
| Properties.CreateEventStoresEventAndOrganizerTicket | ticketing-backend/test/Ticketing.ts:46-83 | with a future end date, createEvent stores the next event organized by the caller, not cancelled, and mints the next ticket id to the caller as ORGANIZER with URI `organizer-<id>.json`; earlier events, tickets, token owners, URIs and index entries are unchanged |
| Properties.CreateEventRejectsPastEndDate | ticketing-backend/test/Ticketing.ts:61-66 | an end date not after `now` reverts with "End date must be in the future." and leaves storage unchanged |
| Properties.CreateTicketMintsToCaller | ticketing-backend/test/Ticketing.ts:166-175 | in a valid state, createTicket succeeds exactly when the code is STANDARD, the event exists and is live, and the caller is non-zero and holds no ticket for it (the organizer always holds one, so VIP/STAFF never succeed here); it then emits TicketCreated and mints the next id to the caller as STANDARD with the given URI; events, earlier tickets, other tokens and other index entries are unchanged |
| Properties.CreateTicketOncePerEvent | ticketing-backend/test/Ticketing.ts:196-204 | after a successful createTicket, a second one by the same caller for the same event reverts with "User already has a ticket for this event." |
| Properties.TicketsForSeveralEvents | ticketing-backend/test/Ticketing.ts:206-220 | one caller may take tickets for two events and gets two consecutive ids |
| Properties.OrganizerCannotCreateTicket | ticketing-backend/test/Ticketing.ts:189-194 | the organizer of a live event already holds its ORGANIZER ticket, so a STANDARD, VIP or STAFF request by them reverts with "User already has a ticket for this event." |
| Properties.CreateTicketPrivilegedNeedsOrganizer | ticketing-backend/test/Ticketing.ts:222-234 | a VIP or STAFF request by anyone but the organizer of a live event reverts with "Only the event organizer can create VIP or STAFF tickets." and leaves storage unchanged |
| Properties.CreateTicketForSucceedsIff | ticketing-backend/test/Ticketing.ts:255-266 | in a valid state, createTicketFor succeeds exactly when the event is live, the caller is its organizer, the type is VIP or STAFF and the recipient is non-zero and holds no ticket; it then stores the next ticket with that type, mints it to the recipient with the given URI and indexes it; events, earlier tickets, other tokens and other index entries are unchanged |
| Properties.CreateTicketForRejections | ticketing-backend/test/Ticketing.ts:268-290 | on an existing event, a caller other than the organizer is refused first; the organizer asking for STANDARD or ORGANIZER is refused next; storage is unchanged |
| Properties.UpdateTicketTypeChangesOnlyType | ticketing-backend/test/Ticketing.ts:294-318 | in a valid state, re-typing succeeds exactly when the code is STANDARD, VIP or STAFF, the event exists and is live, the caller is its organizer, and `user` holds an unused non-ORGANIZER ticket; it then rewrites only that ticket's type and emits old and new type |
| Properties.UpdateTicketTypeRejections | ticketing-backend/test/Ticketing.ts:320-371 | an unknown type code reverts by ABI decoding, ORGANIZER as the new type is refused, and an ORGANIZER ticket cannot be re-typed |
| Properties.UpdateTicketTypeNeedsOrganizer | ticketing-backend/test/Ticketing.ts:330-338 | a non-organizer caller is refused and storage is unchanged |
| Properties.ResellMovesTicket | ticketing-backend/test/Ticketing.ts:392-407 | in a valid state, resale succeeds exactly when the event exists and is live, the caller holds an unused STANDARD ticket for it, and `to` is non-zero and holds none; it then moves the token to `to`, points `to`'s index entry at it, clears the seller's entry, and changes no other token owner, index entry, URI, ticket, event or counter |
| Properties.ResellOnlyStandard | ticketing-backend/test/Ticketing.ts:409-427 | a VIP, STAFF or ORGANIZER ticket is never resold |
| Properties.ResellRejections | ticketing-backend/test/Ticketing.ts:429-466 | unknown event, seller without a ticket and recipient with a ticket each revert with their own reason |
| Properties.RemoveBurnsTicket | ticketing-backend/test/Ticketing.ts:516-544 | in a valid state, removal succeeds exactly when the event exists and is live, the caller is its organizer and `user` holds a VIP or STAFF ticket; it then burns that token (ownerOf and tokenURI revert, `user`'s entry reads 0) and leaves every other token, URI, index entry, ticket and event unchanged |
| Properties.RemoveRejections | ticketing-backend/test/Ticketing.ts:546-589 | STANDARD tickets cannot be removed, non-organizers cannot remove, and unknown events or missing tickets revert |
| Properties.UseTicketMarksUsed | ticketing-backend/test/Ticketing.ts:470-481 | in a valid state, use succeeds exactly when the caller owns the minted token, the ticket is unused and its event is live; it then sets `used` on that ticket only, emits TicketUsed with the owner, and leaves owners, URIs, index and events unchanged |
| Properties.UseTicketOnce | ticketing-backend/test/Ticketing.ts:470-491 | after a successful use, every further use of that ticket reverts |
| Properties.UseTicketOnlyOwner | ticketing-backend/test/Ticketing.ts:483-491 | a caller other than the token owner is refused with "Only the ticket owner can use the ticket." |
| Properties.UpdateEventMetadataBehaviour | ticketing-backend/test/Ticketing.ts:87-126 | the organizer of a live event rewrites only its metadata URI before the end date; every other case reverts with its reason |
| Properties.CancelEventBehaviour | ticketing-backend/test/Ticketing.ts:130-162 | the organizer cancels once; a non-organizer or a second cancellation reverts |
| Properties.CancelledEventIsFrozen | ticketing-backend/test/Ticketing.ts:106-114 | any call aimed at a cancelled event reverts and leaves storage unchanged |
| Properties.CancelledEventReason | ticketing-backend/test/Ticketing.ts:243-251 | for a cancelled event, each operation reports "Event is cancelled." once the checks before it pass |
| Properties.UseTicketOfCancelledEvent | ticketing-backend/test/Ticketing.ts:503-512 | using a ticket of a cancelled event reverts with "Event is cancelled." |
| Properties.TransferFromAlwaysReverts | ticketing-backend/test/Ticketing.ts:647-656 | transferFrom always reverts with "Direct NFT transfers are disabled." and changes nothing |
| History.RevertChangesNothing | ticketing-backend/test/Ticketing.ts:61-66 | a reverted call leaves storage exactly as it was |
| History.ApplyEvolves | ticketing-backend/test/Ticketing.ts:13-689 | every call keeps event identity, organizer and end date, keeps cancellation and use one-way, keeps ORGANIZER-ness, and never re-mints a burned id |
| History.OwnershipMovesOnlyByResale | ticketing-backend/test/Ticketing.ts:647-668 | if a live token changes owner, the call was resellTicket by its owner and the new owner is the recipient |
| History.RunKeepsValid | ticketing-backend/test/Ticketing.ts:13-689 | running any sequence of calls from a valid state gives a valid state that evolves from it |
| History.ReachableStatesAreValid | ticketing-backend/test/Ticketing.ts:29-43 | every state reachable from deployment satisfies the storage invariant |
| Contract.Ticketing.constructor | ticketing-backend/test/Ticketing.ts:29-31 | deployment gives empty storage, which is valid |
| Contract.Ticketing.Mint | ticketing-backend/test/Ticketing.ts:593-608 | the next ticket id is minted to the recipient with its URI and recorded in the index |
| Contract.Ticketing.CreateEvent | ticketing-backend/test/Ticketing.ts:45-84 | the in-place createEvent reports and stores exactly what `Ledger.CreateEvent` does and keeps the invariant |
| Contract.Ticketing.UpdateEventMetadata | ticketing-backend/test/Ticketing.ts:86-127 | the in-place updateEventMetadata equals `Ledger.UpdateEventMetadata` and keeps the invariant |
| Contract.Ticketing.CancelEvent | ticketing-backend/test/Ticketing.ts:129-163 | the in-place cancelEvent equals `Ledger.CancelEvent` and keeps the invariant |
| Contract.Ticketing.CreateTicket | ticketing-backend/test/Ticketing.ts:165-252 | the in-place createTicket equals `Ledger.CreateTicket` and keeps the invariant |
| Contract.Ticketing.CreateTicketFor | ticketing-backend/test/Ticketing.ts:254-291 | the in-place createTicketFor equals `Ledger.CreateTicketFor` and keeps the invariant |
| Contract.Ticketing.UpdateTicketType | ticketing-backend/test/Ticketing.ts:293-383 | the in-place updateTicketType equals `Ledger.UpdateTicketType` and keeps the invariant |
| Contract.Ticketing.ResellTicket | ticketing-backend/test/Ticketing.ts:385-467 | the in-place resellTicket equals `Ledger.ResellTicket` and keeps the invariant |
| Contract.Ticketing.RemoveTicket | ticketing-backend/test/Ticketing.ts:515-590 | the in-place removeTicket equals `Ledger.RemoveTicket` and keeps the invariant |
| Contract.Ticketing.UseTicket | ticketing-backend/test/Ticketing.ts:469-513 | the in-place useTicket equals `Ledger.UseTicket` and keeps the invariant |
| Contract.Ticketing.TransferFrom | ticketing-backend/test/Ticketing.ts:647-656 | transferFrom reverts with "Direct NFT transfers are disabled." and equals `Ledger.TransferFrom` |
| Scenarios.BeforeEach | ticketing-backend/test/Ticketing.ts:29-43 | deploying and creating "Concert A" one hour ahead gives event 1 and organizer ticket 1 with URI `organizer-1.json` |
| Scenarios.OtherBuysStandard | ticketing-backend/test/Ticketing.ts:166-175 | after the fixture, `Other` taking a STANDARD ticket owns ticket 2 |
| Scenarios.OrganizerIssues | ticketing-backend/test/Ticketing.ts:255-266 | after the fixture, the organizer issuing a VIP or STAFF ticket to `Other` gives ticket 2 of that type |
| Scenarios.RegistersToMultipleEvents | ticketing-backend/test/Ticketing.ts:206-220 | after a second event, `Other` takes tickets 3 and 4, one per event, and owns both |
| Scenarios.CannotResellToTicketHolder | ticketing-backend/test/Ticketing.ts:429-438 | resale to an address already holding a ticket for the event reverts with "Recipient already has a ticket for this event." |
| Scenarios.MintsWithTicketUri | ticketing-backend/test/Ticketing.ts:593-636 | a created ticket's token id is its ticket id and its tokenURI is the URI given at creation, next to `organizer-1.json` |

## Left out

- The Solidity contract is not part of this model. The reasons follow what
  `ticketing-backend/test/Ticketing.ts` expects in each case it tests. The order of the checks, which
  decides the reason when several fail at once, is this model's choice where the tests do not fix it.
  Each operation checks, and reports the first failure, in this order:
  - createEvent: end date after `now`, then non-zero caller (the ERC-721 mint);
  - updateEventMetadata: event exists, caller is the organizer, not cancelled, not ended;
  - cancelEvent: event exists, caller is the organizer, not cancelled;
  - createTicket: type code decodes, event exists, not cancelled, VIP/STAFF only by the organizer,
    not ORGANIZER, caller holds no ticket, non-zero caller;
  - createTicketFor: type code decodes, event exists, caller is the organizer, type is VIP or STAFF,
    not cancelled, recipient holds no ticket, non-zero recipient;
  - updateTicketType: type code decodes, event exists, caller is the organizer, not cancelled, new type
    is not ORGANIZER, user holds a ticket, that ticket is not ORGANIZER, it is not used;
  - resellTicket: event exists, caller holds a ticket, it is STANDARD, not cancelled, recipient holds no
    ticket, the ticket is not used, non-zero recipient;
  - removeTicket: event exists, caller is the organizer, not cancelled, user holds a ticket, it is VIP or STAFF;
  - useTicket: the ticket's event is not cancelled, the token is minted, caller owns it, it is not used.
- "Ticket already used." is this model's reason for a used ticket in useTicket, updateTicketType and
  resellTicket; the tests fix only that a second use reverts, not its wording.
- createTicket with the ORGANIZER type reverts with "Invalid ticket type.", as updateTicketType does for
  ORGANIZER as the new type; no test calls createTicket with ORGANIZER.
- updateTicketType for a user without a ticket reverts with "User does not have a ticket for this event.",
  the reason removeTicket reports for the same case; no test covers it for updateTicketType.
- removeTicket accepts a VIP or STAFF ticket that is already used. The tests never remove a used ticket,
  so "used is terminal" is kept for useTicket, updateTicketType and resellTicket only.
- "Ended" means `now >= endDate`, and the block timestamp is an explicit `now` parameter. Nothing reads a clock.
- Gas, 256-bit integer overflow, reentrancy and receiver hooks are not modelled; counters are unbounded.
- ERC-721 approvals, `safeTransferFrom`, `balanceOf` and the `Transfer`/`Approval` logs are not modelled.
  Every direct transfer entry point is taken to revert as `transferFrom` does.
- Each successful call yields one emitted record. The tests do not fix whether createEvent also emits
  TicketCreated (or an ERC-721 Transfer) for the organizer ticket it mints; the model records only
  EventCreated.
- removeTicket burns the token (ownerOf and tokenURI then revert) and clears the index entry, but keeps
  the ticket record, which the public `tickets` getter still returns. No test reads a ticket record after
  removal, so whether the contract deletes it is not fixed. One consequence: useTicket on a burned ticket
  whose event is cancelled reports "Event is cancelled.", because the kept record still names the event;
  had the record been deleted it would report the nonexistent-token error instead.
- Scenarios.RegistersToMultipleEvents, Scenarios.CannotResellToTicketHolder, Scenarios.MintsWithTicketUri:
  running these tests' successful minting calls one after another on the class costs more than the
  verifier's per-proof budget, so they are stated over storage values (`Ledger`) instead of the class;
  the class methods are proved equal to those functions.
- The web front end (`ticketing-frontend/`), its hooks and web3 configuration, the root `test/Ticketing.ts`
  and the deployment script are not part of this model.

=== FILE: domain.dfy ===
/**
 * Values shared by the whole ticketing ledger: identities, the ticket-type
 * enumeration and its numeric encoding, the event and ticket records, the
 * audit records the contract emits, and the reasons an operation reverts with.
 */
module Domain {

  /** An account identity. The zero address is never a caller; ERC-721 refuses to mint or transfer to it. */
  type Address = nat

  const ZeroAddress: Address := 0

  datatype Option<T> = None | Some(value: T)

  /** The contract's TicketType enum, declared in the order STANDARD, VIP, STAFF, ORGANIZER. */
  datatype TicketType = Standard | Vip | Staff | Organizer

  /** The uint8 that the ABI uses for each enum member. */
  function EncodeTicketType(t: TicketType): (code: nat)
    ensures code < 4
  {
    match t
    case Standard => 0
    case Vip => 1
    case Staff => 2
    case Organizer => 3
  }

  /**
   * ABI decoding of an enum argument: a code outside the declared members is
   * rejected before the function body runs.
   */
  function DecodeTicketType(code: nat): (r: Option<TicketType>)
    ensures r.Some? <==> code < 4
    ensures r.Some? ==> EncodeTicketType(r.value) == code
  {
    if code == 0 then Some(Standard)
    else if code == 1 then Some(Vip)
    else if code == 2 then Some(Staff)
    else if code == 3 then Some(Organizer)
    else None
  }

  lemma DecodeEncode(t: TicketType)
    ensures DecodeTicketType(EncodeTicketType(t)) == Some(t)
  {
  }

  /** VIP and STAFF tickets are the ones only the organizer issues and may remove. */
  predicate IsPrivileged(t: TicketType) {
    t == Vip || t == Staff
  }

  /** A stored event; `eventExists` (the contract's `exists` flag) is false only in the default record of an unused id. */
  datatype Event = Event(
    id: nat,
    name: string,
    organizer: Address,
    endDate: nat,
    metadataURI: string,
    eventExists: bool,
    cancelled: bool)

  /** A stored ticket; its owner lives in the token ownership map, not here. */
  datatype Ticket = Ticket(id: nat, eventId: nat, used: bool, ticketType: TicketType)

  /** The all-zero record a storage mapping yields for an id that was never written. */
  const NoEvent: Event := Event(0, "", ZeroAddress, 0, "", false, false)
  const NoTicket: Ticket := Ticket(0, 0, false, Standard)

  /** The records emitted to observers, one per successful operation. */
  datatype Log =
    | EventCreated(eventId: nat, name: string, organizer: Address, endDate: nat, metadataURI: string)
    | EventMetadataUpdated(eventId: nat, metadataURI: string)
    | EventCancelled(eventId: nat, organizer: Address)
    | TicketCreated(ticketId: nat, eventId: nat, owner: Address, ticketType: TicketType)
    | TicketTypeUpdated(ticketId: nat, user: Address, oldType: TicketType, newType: TicketType)
    | TicketResold(ticketId: nat, eventId: nat, from: Address, to: Address)
    | TicketRemoved(ticketId: nat, eventId: nat, owner: Address, ticketType: TicketType)
    | TicketUsed(ticketId: nat, owner: Address)

  /** Why an operation reverted. */
  datatype Error =
    | Revert(reason: string)                // a failed require with its message
    | EnumOutOfRange                        // a ticket-type argument outside the enum
    | InvalidReceiver(receiver: Address)    // a token minted or moved to the zero address
    | NonexistentToken(tokenId: nat)        // ownerOf on an id that is not minted (or was burned)

  datatype Outcome = Ok(log: Log) | Err(error: Error)

  const EndDateNotFuture := "End date must be in the future."
  const EventNotFound := "Event does not exist."
  const EventIsCancelled := "Event is cancelled."
  const EventHasEnded := "Event has already ended."
  const OnlyOrganizerMetadata := "Only organizer can update metadata."
  const OnlyOrganizerCancel := "Only organizer can cancel event."
  const OnlyOrganizerPrivileged := "Only the event organizer can create VIP or STAFF tickets."
  const InvalidTicketType := "Invalid ticket type."
  const AlreadyHasTicket := "User already has a ticket for this event."
  const OnlyOrganizerForOthers := "Only organizer can create tickets for others."
  const OnlyPrivilegedForOthers := "Only VIP or STAFF tickets can be created for others."
  const OnlyOrganizerUpdate := "Only organizer can update tickets."
  const CannotModifyOrganizer := "Cannot modify organizer ticket."
  const UserHasNoTicket := "User does not have a ticket for this event."
  const CallerHasNoTicket := "You do not own a ticket for this event."
  const OnlyStandardResold := "Only STANDARD tickets can be resold."
  const RecipientHasTicket := "Recipient already has a ticket for this event."
  const OnlyOrganizerRemove := "Only organizer can remove tickets."
  const OnlyPrivilegedRemoved := "Only VIP or STAFF tickets can be removed by organizer."
  const OnlyOwnerUse := "Only the ticket owner can use the ticket."
  const TicketAlreadyUsed := "Ticket already used."
  const TransfersDisabled := "Direct NFT transfers are disabled."

  /** The decimal digit for 0..9. */
  function DigitChar(d: nat): (c: char)
    requires d < 10
    ensures '0' <= c <= '9'
  {
    ['0', '1', '2', '3', '4', '5', '6', '7', '8', '9'][d]
  }

  function DigitValue(c: char): (d: nat)
    ensures '0' <= c <= '9' ==> d < 10 && DigitChar(d) == c
  {
    if '0' <= c <= '9' then (c - '0') as nat else 0
  }

  /** The decimal rendering of n (Solidity's Strings.toString), most significant digit first. */
  function DecimalString(n: nat): (r: string)
    ensures 1 <= |r|
    ensures forall i :: 0 <= i < |r| ==> '0' <= r[i] <= '9'
    ensures r[0] == '0' ==> n == 0
  {
    if n < 10 then [DigitChar(n)] else DecimalString(n / 10) + [DigitChar(n % 10)]
  }

  /** The number a string of decimal digits denotes. */
  function DecimalValue(s: string): nat {
    if s == [] then 0 else DecimalValue(s[..|s| - 1]) * 10 + DigitValue(s[|s| - 1])
  }

  lemma {:induction false} DecimalRoundTrip(n: nat)
    ensures DecimalValue(DecimalString(n)) == n
  {
    var r := DecimalString(n);
    if n < 10 {
      assert r[..|r| - 1] == [];
    } else {
      var q, d := n / 10, n % 10;
      assert r == DecimalString(q) + [DigitChar(d)];
      assert r[..|r| - 1] == DecimalString(q);
      assert DigitValue(r[|r| - 1]) == d;
      DecimalRoundTrip(q);
      assert DecimalValue(r) == q * 10 + d;
    }
  }

  /** The token URI given to the organizer ticket of event `eventId`. */
  function OrganizerUri(eventId: nat): string {
    "organizer-" + DecimalString(eventId) + ".json"
  }
}

=== FILE: history.dfy ===
/**
 * Facts about whole histories of calls: which parts of storage are write-once
 * or one-way, that a reverted call changes nothing, that ownership moves only
 * by resale, and that every reachable state satisfies the storage invariant.
 */
module History {
  import opened Domain
  import opened Ledger
  import opened Invariant

  /** An event keeps its identity, organizer and end date; cancellation is one-way. */
  ghost predicate EventsEvolve(s: State, s': State) {
    && s.eventCount <= s'.eventCount
    && forall e :: e in s.events ==>
         && e in s'.events
         && s'.events[e].id == s.events[e].id && s'.events[e].name == s.events[e].name
         && s'.events[e].organizer == s.events[e].organizer && s'.events[e].endDate == s.events[e].endDate
         && (s.events[e].cancelled ==> s'.events[e].cancelled)
  }

  /** A ticket keeps its id and event; use is one-way; ORGANIZER tickets stay ORGANIZER and no other becomes one. */
  ghost predicate TicketsEvolve(s: State, s': State) {
    && s.ticketCount <= s'.ticketCount
    && forall t :: t in s.tickets ==>
         && t in s'.tickets
         && s'.tickets[t].id == s.tickets[t].id && s'.tickets[t].eventId == s.tickets[t].eventId
         && (s.tickets[t].used ==> s'.tickets[t].used)
         && (s.tickets[t].ticketType == Organizer <==> s'.tickets[t].ticketType == Organizer)
  }

  /** A burned token is never minted again, and new tokens get ids above every earlier one. */
  ghost predicate TokensEvolve(s: State, s': State) {
    && (forall t :: t in s.tickets && t !in s.owners ==> t !in s'.owners)
    && (forall t :: t in s'.owners && t !in s.owners ==> s.ticketCount < t)
  }

  /** What any later state keeps of an earlier one. */
  ghost predicate Evolves(s: State, s': State) {
    EventsEvolve(s, s') && TicketsEvolve(s, s') && TokensEvolve(s, s')
  }

  lemma EvolvesReflexive(s: State)
    ensures Evolves(s, s)
  {
  }

  lemma EvolvesTransitive(s1: State, s2: State, s3: State)
    requires Evolves(s1, s2) && Evolves(s2, s3)
    ensures Evolves(s1, s3)
  {
  }

  /** A reverted call leaves storage exactly as it was. */
  lemma RevertChangesNothing(s: State, caller: Address, now: nat, c: Call)
    requires Apply(s, caller, now, c).outcome.Err?
    ensures Apply(s, caller, now, c).next == s
  {
  }

  /** The next event id and the next ticket id are unused, as they are in every valid state. */
  ghost predicate NextIdsFree(s: State) {
    s.eventCount + 1 !in s.events && s.ticketCount + 1 !in s.tickets
  }

  lemma IssueEvolves(s: State, eventId: nat, to: Address, t: TicketType, uri: string)
    requires s.ticketCount + 1 !in s.tickets
    ensures Evolves(s, Issue(s, eventId, to, t, uri))
  {
  }

  lemma CreateEventEvolves(s: State, caller: Address, now: nat, name: string, endDate: nat, uri: string)
    requires NextIdsFree(s)
    ensures Evolves(s, CreateEvent(s, caller, now, name, endDate, uri).next)
  {
    var r := CreateEvent(s, caller, now, name, endDate, uri);
    if r.outcome.Ok? {
      var s1 := Registered(s, caller, name, endDate, uri);
      assert Evolves(s, s1);
      IssueEvolves(s1, s.eventCount + 1, caller, Organizer, OrganizerUri(s.eventCount + 1));
      EvolvesTransitive(s, s1, r.next);
    }
  }

  lemma CreateTicketEvolves(s: State, caller: Address, eventId: nat, code: nat, uri: string)
    requires NextIdsFree(s)
    ensures Evolves(s, CreateTicket(s, caller, eventId, code, uri).next)
  {
    if CreateTicket(s, caller, eventId, code, uri).outcome.Ok? {
      IssueEvolves(s, eventId, caller, DecodeTicketType(code).value, uri);
    } else {
      EvolvesReflexive(s);
    }
  }

  lemma CreateTicketForEvolves(s: State, caller: Address, eventId: nat, to: Address, code: nat, uri: string)
    requires NextIdsFree(s)
    ensures Evolves(s, CreateTicketFor(s, caller, eventId, to, code, uri).next)
  {
    if CreateTicketFor(s, caller, eventId, to, code, uri).outcome.Ok? {
      IssueEvolves(s, eventId, to, DecodeTicketType(code).value, uri);
    } else {
      EvolvesReflexive(s);
    }
  }

  /** Rewriting one event record without touching its identity, organizer, end date or cancellation flag. */
  lemma EventRewriteEvolves(s: State, eventId: nat, ev: Event)
    requires eventId in s.events && ev.id == s.events[eventId].id && ev.name == s.events[eventId].name
    requires ev.organizer == s.events[eventId].organizer && ev.endDate == s.events[eventId].endDate
    requires s.events[eventId].cancelled ==> ev.cancelled
    ensures Evolves(s, s.(events := s.events[eventId := ev]))
  {
  }

  /** Rewriting one ticket record without touching its id or event, un-using it, or changing whether it is ORGANIZER. */
  lemma TicketRewriteEvolves(s: State, ticketId: nat, tk: Ticket)
    requires ticketId in s.tickets ==>
      && tk.id == s.tickets[ticketId].id && tk.eventId == s.tickets[ticketId].eventId
      && (s.tickets[ticketId].used ==> tk.used)
      && (s.tickets[ticketId].ticketType == Organizer <==> tk.ticketType == Organizer)
    ensures Evolves(s, s.(tickets := s.tickets[ticketId := tk]))
  {
  }

  lemma UpdateEventMetadataEvolves(s: State, caller: Address, now: nat, eventId: nat, uri: string)
    ensures Evolves(s, UpdateEventMetadata(s, caller, now, eventId, uri).next)
  {
    var r := UpdateEventMetadata(s, caller, now, eventId, uri);
    if r.outcome.Ok? {
      EventRewriteEvolves(s, eventId, s.events[eventId].(metadataURI := uri));
    } else {
      EvolvesReflexive(s);
    }
  }

  lemma CancelEventEvolves(s: State, caller: Address, eventId: nat)
    ensures Evolves(s, CancelEvent(s, caller, eventId).next)
  {
    var r := CancelEvent(s, caller, eventId);
    if r.outcome.Ok? {
      EventRewriteEvolves(s, eventId, s.events[eventId].(cancelled := true));
    } else {
      EvolvesReflexive(s);
    }
  }

  lemma UpdateTicketTypeEvolves(s: State, caller: Address, eventId: nat, user: Address, code: nat)
    ensures Evolves(s, UpdateTicketType(s, caller, eventId, user, code).next)
  {
    var r := UpdateTicketType(s, caller, eventId, user, code);
    if r.outcome.Ok? {
      var tid := IndexOf(s, eventId, user);
      TicketRewriteEvolves(s, tid, TicketAt(s, tid).(ticketType := DecodeTicketType(code).value));
    } else {
      EvolvesReflexive(s);
    }
  }

  lemma UseTicketEvolves(s: State, caller: Address, ticketId: nat)
    ensures Evolves(s, UseTicket(s, caller, ticketId).next)
  {
    var r := UseTicket(s, caller, ticketId);
    if r.outcome.Ok? {
      TicketRewriteEvolves(s, ticketId, TicketAt(s, ticketId).(used := true));
    } else {
      EvolvesReflexive(s);
    }
  }

  lemma ResellTicketEvolves(s: State, caller: Address, eventId: nat, to: Address)
    requires IndexSound(s)
    ensures Evolves(s, ResellTicket(s, caller, eventId, to).next)
  {
    var r := ResellTicket(s, caller, eventId, to);
    if r.outcome.Ok? {
      assert IndexedToken(s, eventId, caller, s.ticketIdByEventAndOwner[(eventId, caller)]);
      assert r.next.owners.Keys == s.owners.Keys;
    } else {
      EvolvesReflexive(s);
    }
  }

  lemma RemoveTicketEvolves(s: State, caller: Address, eventId: nat, user: Address)
    ensures Evolves(s, RemoveTicket(s, caller, eventId, user).next)
  {
    var r := RemoveTicket(s, caller, eventId, user);
    if r.outcome.Err? {
      EvolvesReflexive(s);
    }
  }

  /** Every call, successful or not, keeps what `Evolves` promises. */
  lemma ApplyEvolves(s: State, caller: Address, now: nat, c: Call)
    requires Valid(s)
    ensures Evolves(s, Apply(s, caller, now, c).next)
  {
    assert NextIdsFree(s);
    match c
    case CreateEventCall(name, endDate, uri) => CreateEventEvolves(s, caller, now, name, endDate, uri);
    case UpdateEventMetadataCall(e, uri) => UpdateEventMetadataEvolves(s, caller, now, e, uri);
    case CancelEventCall(e) => CancelEventEvolves(s, caller, e);
    case CreateTicketCall(e, code, uri) => CreateTicketEvolves(s, caller, e, code, uri);
    case CreateTicketForCall(e, to, code, uri) => CreateTicketForEvolves(s, caller, e, to, code, uri);
    case UpdateTicketTypeCall(e, user, code) => UpdateTicketTypeEvolves(s, caller, e, user, code);
    case ResellTicketCall(e, to) => ResellTicketEvolves(s, caller, e, to);
    case RemoveTicketCall(e, user) => RemoveTicketEvolves(s, caller, e, user);
    case UseTicketCall(t) => UseTicketEvolves(s, caller, t);
    case TransferFromCall(from, to, t) => EvolvesReflexive(s);
  }

  /** Outside of a resale, no minted token ever changes hands. */
  lemma OwnershipMovesOnlyByResale(s: State, caller: Address, now: nat, c: Call, t: nat)
    requires Valid(s)
    requires t in s.owners && t in Apply(s, caller, now, c).next.owners
    requires Apply(s, caller, now, c).next.owners[t] != s.owners[t]
    ensures c.ResellTicketCall? && s.owners[t] == caller && t == IndexOf(s, c.eventId, caller)
    ensures Apply(s, caller, now, c).next.owners[t] == c.to
  {
    assert s.ticketCount + 1 !in s.tickets;
    OwnerChangeIsResale(s, caller, now, c, t);
  }

  lemma OwnerChangeIsResale(s: State, caller: Address, now: nat, c: Call, t: nat)
    requires IndexSound(s) && s.ticketCount + 1 !in s.owners
    requires t in s.owners && t in Apply(s, caller, now, c).next.owners
    requires Apply(s, caller, now, c).next.owners[t] != s.owners[t]
    ensures c.ResellTicketCall? && s.owners[t] == caller && t == IndexOf(s, c.eventId, caller)
    ensures Apply(s, caller, now, c).next.owners[t] == c.to
  {
    if c.ResellTicketCall? {
      assert IndexedToken(s, c.eventId, caller, s.ticketIdByEventAndOwner[(c.eventId, caller)]);
    }
  }

  /** One call of a transaction history. */
  datatype Tx = Tx(caller: Address, now: nat, call: Call)

  /** The state after running `txs` in order from `s`; reverted calls leave it unchanged. */
  function Run(s: State, txs: seq<Tx>): State
    decreases |txs|
  {
    if txs == [] then s else Run(Apply(s, txs[0].caller, txs[0].now, txs[0].call).next, txs[1..])
  }

  lemma {:induction false} RunKeepsValid(s: State, txs: seq<Tx>)
    requires Valid(s)
    ensures Valid(Run(s, txs)) && Evolves(s, Run(s, txs))
    decreases |txs|
  {
    if txs == [] {
      EvolvesReflexive(s);
    } else {
      var tx := txs[0];
      var s1 := Apply(s, tx.caller, tx.now, tx.call).next;
      ApplyPreservesValid(s, tx.caller, tx.now, tx.call);
      ApplyEvolves(s, tx.caller, tx.now, tx.call);
      RunKeepsValid(s1, txs[1..]);
      EvolvesTransitive(s, s1, Run(s1, txs[1..]));
    }
  }

  /** Every state reachable from deployment satisfies the storage invariant. */
  lemma ReachableStatesAreValid(txs: seq<Tx>)
    ensures Valid(Run(Deployed, txs))
  {
    DeployedValid();
    RunKeepsValid(Deployed, txs);
  }
}

=== FILE: invariant.dfy ===
/**
 * Every operation of the contract keeps the storage invariant `Ledger.Valid`,
 * so every state reachable from deployment satisfies it.
 *
 * The successful branches change storage in five shapes: an event record is
 * rewritten, a ticket record is rewritten, a ticket is issued, a token moves
 * to a new owner, or a token is burned. Each shape has its own lemma.
 */
module Invariant {
  import opened Domain
  import opened Ledger

  lemma DeployedValid()
    ensures Valid(Deployed)
  {
  }

  /*
   * Event rewrite: one stored event gets new contents with the same id, organizer and existence.
   */

  ghost predicate EventRewritable(s: State, e: nat, ev: Event) {
    Valid(s) && e in s.events && ev.id == e && ev.organizer == s.events[e].organizer && ev.eventExists
  }

  lemma EventRewriteKeepsTables(s: State, e: nat, ev: Event)
    requires EventRewritable(s, e, ev)
    ensures var s' := s.(events := s.events[e := ev]);
      EventsDense(s') && TicketsDense(s') && TokensMinted(s')
  {
    assert s.(events := s.events[e := ev]).events.Keys == s.events.Keys;
  }

  lemma EventRewriteKeepsIndex(s: State, e: nat, ev: Event)
    requires EventRewritable(s, e, ev)
    ensures var s' := s.(events := s.events[e := ev]);
      TokensMinted(s') && IndexSound(s') && IndexComplete(s')
  {
    var s' := s.(events := s.events[e := ev]);
    forall k | k in s'.ticketIdByEventAndOwner
      ensures IndexedToken(s', k.0, k.1, s'.ticketIdByEventAndOwner[k])
    {
      assert IndexedToken(s, k.0, k.1, s.ticketIdByEventAndOwner[k]);
    }
  }

  lemma EventRewriteKeepsOrganizers(s: State, e: nat, ev: Event)
    requires EventRewritable(s, e, ev)
    ensures var s' := s.(events := s.events[e := ev]);
      TicketsDense(s') && OrganizersHoldTickets(s') && OrganizerTicketsPinned(s')
  {
    var s' := s.(events := s.events[e := ev]);
    EventRewriteKeepsTables(s, e, ev);
    forall e2 | e2 in s'.events ensures HoldsOrganizerTicket(s', e2) {
      assert HoldsOrganizerTicket(s, e2);
    }
  }

  /** Rewriting a stored event keeps the invariant when its id, organizer and existence are kept. */
  lemma EventRewriteKeepsValid(s: State, e: nat, ev: Event)
    requires Valid(s) && e in s.events
    requires ev.id == e && ev.organizer == s.events[e].organizer && ev.eventExists
    ensures Valid(s.(events := s.events[e := ev]))
  {
    EventRewriteKeepsTables(s, e, ev);
    EventRewriteKeepsIndex(s, e, ev);
    EventRewriteKeepsOrganizers(s, e, ev);
  }

  /*
   * Ticket rewrite: one stored ticket gets new contents with the same id and event, and stays
   * ORGANIZER exactly when it was.
   */

  ghost predicate TicketRewritable(s: State, t: nat, tk: Ticket) {
    Valid(s) && t in s.tickets && tk.id == t && tk.eventId == s.tickets[t].eventId &&
    (tk.ticketType == Organizer) == (s.tickets[t].ticketType == Organizer)
  }

  lemma TicketRewriteKeepsTables(s: State, t: nat, tk: Ticket)
    requires TicketRewritable(s, t, tk)
    ensures var s' := s.(tickets := s.tickets[t := tk]);
      EventsDense(s') && TicketsDense(s') && TokensMinted(s')
  {
    assert s.(tickets := s.tickets[t := tk]).tickets.Keys == s.tickets.Keys;
  }

  lemma TicketRewriteKeepsIndex(s: State, t: nat, tk: Ticket)
    requires TicketRewritable(s, t, tk)
    ensures var s' := s.(tickets := s.tickets[t := tk]);
      TokensMinted(s') && IndexSound(s') && IndexComplete(s')
  {
    var s' := s.(tickets := s.tickets[t := tk]);
    TicketRewriteKeepsTables(s, t, tk);
    forall k | k in s'.ticketIdByEventAndOwner
      ensures IndexedToken(s', k.0, k.1, s'.ticketIdByEventAndOwner[k])
    {
      assert IndexedToken(s, k.0, k.1, s.ticketIdByEventAndOwner[k]);
    }
    forall t2 | t2 in s'.owners ensures IndexOf(s', s'.tickets[t2].eventId, s'.owners[t2]) == t2 {
      assert IndexOf(s, s.tickets[t2].eventId, s.owners[t2]) == t2;
    }
  }

  lemma TicketRewriteKeepsOrganizerTickets(s: State, t: nat, tk: Ticket)
    requires TicketsDense(s) && OrganizersHoldTickets(s)
    requires t in s.tickets && (tk.ticketType == Organizer) == (s.tickets[t].ticketType == Organizer)
    ensures OrganizersHoldTickets(s.(tickets := s.tickets[t := tk]))
  {
    var s' := s.(tickets := s.tickets[t := tk]);
    forall e | e in s'.events ensures HoldsOrganizerTicket(s', e) {
      var tid := IndexOf(s, e, s.events[e].organizer);
      assert HoldsOrganizerTicket(s, e);
      assert s'.tickets[tid].ticketType == Organizer;
    }
  }

  lemma TicketRewriteKeepsPinned(s: State, t: nat, tk: Ticket)
    requires TicketsDense(s) && OrganizerTicketsPinned(s)
    requires t in s.tickets && tk.id == t && tk.eventId == s.tickets[t].eventId
    requires (tk.ticketType == Organizer) == (s.tickets[t].ticketType == Organizer)
    ensures TicketsDense(s.(tickets := s.tickets[t := tk]))
    ensures OrganizerTicketsPinned(s.(tickets := s.tickets[t := tk]))
  {
    var s' := s.(tickets := s.tickets[t := tk]);
    assert s'.tickets.Keys == s.tickets.Keys;
    forall t2 | t2 in s'.tickets && s'.tickets[t2].ticketType == Organizer
      ensures t2 in s'.owners && s'.owners[t2] == s'.events[s'.tickets[t2].eventId].organizer
    {
      assert s.tickets[t2].ticketType == Organizer;
    }
  }

  /** Rewriting a stored ticket keeps the invariant when its id, event and ORGANIZER-ness are kept. */
  lemma TicketRewriteKeepsValid(s: State, t: nat, tk: Ticket)
    requires Valid(s) && t in s.tickets
    requires tk.id == t && tk.eventId == s.tickets[t].eventId
    requires (tk.ticketType == Organizer) == (s.tickets[t].ticketType == Organizer)
    ensures Valid(s.(tickets := s.tickets[t := tk]))
  {
    TicketRewriteKeepsTables(s, t, tk);
    TicketRewriteKeepsIndex(s, t, tk);
    TicketRewriteKeepsOrganizerTickets(s, t, tk);
    TicketRewriteKeepsPinned(s, t, tk);
  }

  /*
   * Issue: a fresh non-ORGANIZER ticket minted to a non-zero address without a ticket for the event.
   * Each clause of the invariant is re-established from the clauses of the old state it depends on.
   */

  lemma IssueKeepsTables(s: State, e: nat, to: Address, ty: TicketType, uri: string)
    requires EventsDense(s) && TicketsDense(s) && TokensMinted(s)
    requires e in s.events && to != ZeroAddress
    ensures var s' := Issue(s, e, to, ty, uri);
      EventsDense(s') && TicketsDense(s') && TokensMinted(s')
  {
  }

  lemma IssueKeepsIndexSound(s: State, e: nat, to: Address, ty: TicketType, uri: string)
    requires TicketsDense(s) && TokensMinted(s) && IndexSound(s)
    ensures IndexSound(Issue(s, e, to, ty, uri))
  {
    var s' := Issue(s, e, to, ty, uri);
    forall k | k in s'.ticketIdByEventAndOwner
      ensures IndexedToken(s', k.0, k.1, s'.ticketIdByEventAndOwner[k])
    {
      if k != (e, to) {
        assert IndexedToken(s, k.0, k.1, s.ticketIdByEventAndOwner[k]);
      }
    }
  }

  lemma IssueKeepsIndexComplete(s: State, e: nat, to: Address, ty: TicketType, uri: string)
    requires TicketsDense(s) && TokensMinted(s) && IndexComplete(s)
    requires to != ZeroAddress && IndexOf(s, e, to) == 0
    ensures TokensMinted(Issue(s, e, to, ty, uri)) && IndexComplete(Issue(s, e, to, ty, uri))
  {
    var s' := Issue(s, e, to, ty, uri);
    var tid := s.ticketCount + 1;
    forall t | t in s'.owners ensures IndexOf(s', s'.tickets[t].eventId, s'.owners[t]) == t {
      if t != tid {
        var key := (s.tickets[t].eventId, s.owners[t]);
        assert IndexOf(s, key.0, key.1) == t;
        assert key != (e, to);
        assert IndexOf(s', key.0, key.1) == t;
      }
    }
  }

  lemma IssueKeepsOrganizerTickets(s: State, e: nat, to: Address, ty: TicketType, uri: string)
    requires TicketsDense(s) && OrganizersHoldTickets(s) && IndexOf(s, e, to) == 0
    ensures OrganizersHoldTickets(Issue(s, e, to, ty, uri))
  {
    var s' := Issue(s, e, to, ty, uri);
    forall e2 | e2 in s'.events ensures HoldsOrganizerTicket(s', e2) {
      var org := s.events[e2].organizer;
      assert HoldsOrganizerTicket(s, e2);
      assert (e2, org) != (e, to);
      assert IndexOf(s', e2, org) == IndexOf(s, e2, org);
      assert s'.tickets[IndexOf(s, e2, org)] == s.tickets[IndexOf(s, e2, org)];
    }
  }

  lemma IssueKeepsPinned(s: State, e: nat, to: Address, ty: TicketType, uri: string)
    requires EventsDense(s) && TicketsDense(s) && TokensMinted(s) && OrganizerTicketsPinned(s)
    requires e in s.events && to != ZeroAddress && (ty == Organizer ==> to == s.events[e].organizer)
    ensures TicketsDense(Issue(s, e, to, ty, uri)) && OrganizerTicketsPinned(Issue(s, e, to, ty, uri))
  {
    IssueKeepsTables(s, e, to, ty, uri);
  }

  /** Issuing a non-ORGANIZER ticket to a non-zero address that holds none for the event keeps the invariant. */
  lemma IssueKeepsValid(s: State, e: nat, to: Address, ty: TicketType, uri: string)
    requires Valid(s) && e in s.events
    requires to != ZeroAddress && IndexOf(s, e, to) == 0 && ty != Organizer
    ensures Valid(Issue(s, e, to, ty, uri))
  {
    IssueKeepsTables(s, e, to, ty, uri);
    IssueKeepsIndexSound(s, e, to, ty, uri);
    IssueKeepsIndexComplete(s, e, to, ty, uri);
    IssueKeepsOrganizerTickets(s, e, to, ty, uri);
    IssueKeepsPinned(s, e, to, ty, uri);
  }

  /*
   * Move: the STANDARD token indexed at (e, from) passes to a non-zero `to` without a ticket for e.
   */

  lemma MoveKeepsTables(s: State, e: nat, from: Address, to: Address, tid: nat)
    requires EventsDense(s) && TicketsDense(s) && TokensMinted(s)
    requires tid in s.owners && to != ZeroAddress
    ensures var s' := Moved(s, e, from, to, tid);
      EventsDense(s') && TicketsDense(s') && TokensMinted(s')
  {
    assert Moved(s, e, from, to, tid).owners.Keys == s.owners.Keys;
  }

  lemma MoveKeepsIndexSound(s: State, e: nat, from: Address, to: Address, tid: nat)
    requires IndexSound(s) && IndexedToken(s, e, from, tid)
    ensures IndexSound(Moved(s, e, from, to, tid))
  {
    var s' := Moved(s, e, from, to, tid);
    forall k | k in s'.ticketIdByEventAndOwner
      ensures IndexedToken(s', k.0, k.1, s'.ticketIdByEventAndOwner[k])
    {
      if k != (e, to) {
        assert IndexedToken(s, k.0, k.1, s.ticketIdByEventAndOwner[k]);
      }
    }
  }

  lemma MoveKeepsIndexComplete(s: State, e: nat, from: Address, to: Address, tid: nat)
    requires TicketsDense(s) && TokensMinted(s) && IndexComplete(s) && IndexedToken(s, e, from, tid)
    requires tid != 0 && IndexOf(s, e, from) == tid && IndexOf(s, e, to) == 0 && to != ZeroAddress
    ensures TokensMinted(Moved(s, e, from, to, tid)) && IndexComplete(Moved(s, e, from, to, tid))
  {
    var s' := Moved(s, e, from, to, tid);
    assert s'.owners.Keys == s.owners.Keys;
    forall t | t in s'.owners ensures IndexOf(s', s'.tickets[t].eventId, s'.owners[t]) == t {
      if t != tid {
        var key := (s.tickets[t].eventId, s.owners[t]);
        assert IndexOf(s, key.0, key.1) == t;
        assert key != (e, from) && key != (e, to);
        assert IndexOf(s', key.0, key.1) == IndexOf(s, key.0, key.1);
      }
    }
  }

  lemma MoveKeepsOrganizerTickets(s: State, e: nat, from: Address, to: Address, tid: nat)
    requires TicketsDense(s) && OrganizersHoldTickets(s)
    requires IndexOf(s, e, from) == tid && tid in s.tickets && s.tickets[tid].ticketType == Standard
    requires IndexOf(s, e, to) == 0
    ensures OrganizersHoldTickets(Moved(s, e, from, to, tid))
  {
    var s' := Moved(s, e, from, to, tid);
    forall e2 | e2 in s'.events ensures HoldsOrganizerTicket(s', e2) {
      var org := s.events[e2].organizer;
      assert HoldsOrganizerTicket(s, e2);
      assert (e2, org) != (e, to) && (e2, org) != (e, from);
      assert IndexOf(s', e2, org) == IndexOf(s, e2, org);
    }
  }

  lemma MoveKeepsPinned(s: State, e: nat, from: Address, to: Address, tid: nat)
    requires EventsDense(s) && TicketsDense(s) && TokensMinted(s) && OrganizerTicketsPinned(s)
    requires tid in s.owners && s.tickets[tid].ticketType == Standard && to != ZeroAddress
    ensures TicketsDense(Moved(s, e, from, to, tid)) && OrganizerTicketsPinned(Moved(s, e, from, to, tid))
  {
    MoveKeepsTables(s, e, from, to, tid);
  }

  /** Moving a STANDARD token from `from` to a non-zero `to` without a ticket for the event keeps the invariant. */
  lemma MoveKeepsValid(s: State, e: nat, from: Address, to: Address, tid: nat)
    requires Valid(s) && tid != 0 && IndexOf(s, e, from) == tid
    requires tid in s.tickets && s.tickets[tid].ticketType == Standard
    requires to != ZeroAddress && IndexOf(s, e, to) == 0
    ensures Valid(Moved(s, e, from, to, tid))
  {
    assert IndexedToken(s, e, from, tid);
    MoveKeepsTables(s, e, from, to, tid);
    MoveKeepsIndexSound(s, e, from, to, tid);
    MoveKeepsIndexComplete(s, e, from, to, tid);
    MoveKeepsOrganizerTickets(s, e, from, to, tid);
    MoveKeepsPinned(s, e, from, to, tid);
  }

  /*
   * Burn: the non-ORGANIZER token indexed at (e, user) is destroyed with its URI and index entry.
   */

  lemma BurnKeepsTables(s: State, e: nat, user: Address, tid: nat)
    requires EventsDense(s) && TicketsDense(s) && TokensMinted(s)
    ensures var s' := Burned(s, e, user, tid);
      EventsDense(s') && TicketsDense(s') && TokensMinted(s')
  {
  }

  lemma BurnKeepsIndexSound(s: State, e: nat, user: Address, tid: nat)
    requires IndexSound(s) && IndexedToken(s, e, user, tid)
    ensures IndexSound(Burned(s, e, user, tid))
  {
    var s' := Burned(s, e, user, tid);
    forall k | k in s'.ticketIdByEventAndOwner
      ensures IndexedToken(s', k.0, k.1, s'.ticketIdByEventAndOwner[k])
    {
      assert IndexedToken(s, k.0, k.1, s.ticketIdByEventAndOwner[k]);
    }
  }

  lemma BurnKeepsIndexComplete(s: State, e: nat, user: Address, tid: nat)
    requires TokensMinted(s) && IndexComplete(s) && IndexOf(s, e, user) == tid
    ensures TokensMinted(Burned(s, e, user, tid)) && IndexComplete(Burned(s, e, user, tid))
  {
    var s' := Burned(s, e, user, tid);
    forall t | t in s'.owners ensures IndexOf(s', s'.tickets[t].eventId, s'.owners[t]) == t {
      assert IndexOf(s, s.tickets[t].eventId, s.owners[t]) == t;
    }
  }

  lemma BurnKeepsOrganizerTickets(s: State, e: nat, user: Address, tid: nat)
    requires OrganizersHoldTickets(s)
    requires IndexOf(s, e, user) == tid && tid in s.tickets && s.tickets[tid].ticketType != Organizer
    ensures OrganizersHoldTickets(Burned(s, e, user, tid))
  {
    var s' := Burned(s, e, user, tid);
    forall e2 | e2 in s'.events ensures HoldsOrganizerTicket(s', e2) {
      assert HoldsOrganizerTicket(s, e2);
    }
  }

  lemma BurnKeepsPinned(s: State, e: nat, user: Address, tid: nat)
    requires EventsDense(s) && TicketsDense(s) && TokensMinted(s) && OrganizerTicketsPinned(s)
    requires tid in s.tickets && s.tickets[tid].ticketType != Organizer
    ensures TicketsDense(Burned(s, e, user, tid)) && OrganizerTicketsPinned(Burned(s, e, user, tid))
  {
    BurnKeepsTables(s, e, user, tid);
  }

  /** Burning a non-ORGANIZER token and clearing its index entry keeps the invariant. */
  lemma BurnKeepsValid(s: State, e: nat, user: Address, tid: nat)
    requires Valid(s) && tid != 0 && IndexOf(s, e, user) == tid
    requires tid in s.tickets && s.tickets[tid].ticketType != Organizer
    ensures Valid(Burned(s, e, user, tid))
  {
    assert IndexedToken(s, e, user, tid);
    BurnKeepsTables(s, e, user, tid);
    BurnKeepsIndexSound(s, e, user, tid);
    BurnKeepsIndexComplete(s, e, user, tid);
    BurnKeepsOrganizerTickets(s, e, user, tid);
    BurnKeepsPinned(s, e, user, tid);
  }

  /*
   * Event creation: the next event is registered, then its ORGANIZER ticket is issued to the caller.
   */

  lemma RegisteredKeepsIndex(s: State, caller: Address, name: string, endDate: nat, uri: string)
    requires Valid(s) && caller != ZeroAddress
    ensures var r := Registered(s, caller, name, endDate, uri);
      && EventsDense(r) && TicketsDense(r) && TokensMinted(r) && IndexSound(r) && IndexComplete(r)
      && OrganizerTicketsPinned(r)
      && r.eventCount in r.events && IndexOf(r, r.eventCount, caller) == 0
  {
    var r := Registered(s, caller, name, endDate, uri);
    var id := s.eventCount + 1;
    assert IndexSound(r) by {
      forall k | k in r.ticketIdByEventAndOwner
        ensures IndexedToken(r, k.0, k.1, r.ticketIdByEventAndOwner[k])
      {
        assert IndexedToken(s, k.0, k.1, s.ticketIdByEventAndOwner[k]);
      }
    }
  }

  lemma NewEventKeepsOrganizerTickets(s: State, caller: Address, name: string, endDate: nat, uri: string)
    requires EventsDense(s) && TicketsDense(s) && OrganizersHoldTickets(s)
    ensures var id := s.eventCount + 1;
      OrganizersHoldTickets(Issue(Registered(s, caller, name, endDate, uri), id, caller, Organizer, OrganizerUri(id)))
  {
    var id := s.eventCount + 1;
    var s' := Issue(Registered(s, caller, name, endDate, uri), id, caller, Organizer, OrganizerUri(id));
    forall e | e in s'.events ensures HoldsOrganizerTicket(s', e) {
      if e != id {
        var org := s.events[e].organizer;
        assert HoldsOrganizerTicket(s, e);
        assert IndexOf(s', e, org) == IndexOf(s, e, org);
        assert s'.tickets[IndexOf(s, e, org)] == s.tickets[IndexOf(s, e, org)];
      }
    }
  }

  lemma NewEventKeepsValid(s: State, caller: Address, name: string, endDate: nat, uri: string)
    requires Valid(s) && caller != ZeroAddress
    ensures var id := s.eventCount + 1;
      Valid(Issue(Registered(s, caller, name, endDate, uri), id, caller, Organizer, OrganizerUri(id)))
  {
    var r := Registered(s, caller, name, endDate, uri);
    var id := r.eventCount;
    RegisteredKeepsIndex(s, caller, name, endDate, uri);
    IssueKeepsTables(r, id, caller, Organizer, OrganizerUri(id));
    IssueKeepsIndexSound(r, id, caller, Organizer, OrganizerUri(id));
    IssueKeepsIndexComplete(r, id, caller, Organizer, OrganizerUri(id));
    IssueKeepsPinned(r, id, caller, Organizer, OrganizerUri(id));
    NewEventKeepsOrganizerTickets(s, caller, name, endDate, uri);
  }

  lemma CreateEventPreservesValid(s: State, caller: Address, now: nat, name: string, endDate: nat, uri: string)
    requires Valid(s)
    ensures Valid(CreateEvent(s, caller, now, name, endDate, uri).next)
  {
    if endDate > now && caller != ZeroAddress {
      NewEventKeepsValid(s, caller, name, endDate, uri);
    }
  }

  lemma UpdateEventMetadataPreservesValid(s: State, caller: Address, now: nat, eventId: nat, uri: string)
    requires Valid(s)
    ensures Valid(UpdateEventMetadata(s, caller, now, eventId, uri).next)
  {
    if UpdateEventMetadata(s, caller, now, eventId, uri).outcome.Ok? {
      EventRewriteKeepsValid(s, eventId, s.events[eventId].(metadataURI := uri));
    }
  }

  lemma CancelEventPreservesValid(s: State, caller: Address, eventId: nat)
    requires Valid(s)
    ensures Valid(CancelEvent(s, caller, eventId).next)
  {
    if CancelEvent(s, caller, eventId).outcome.Ok? {
      EventRewriteKeepsValid(s, eventId, s.events[eventId].(cancelled := true));
    }
  }

  lemma CreateTicketPreservesValid(s: State, caller: Address, eventId: nat, code: nat, uri: string)
    requires Valid(s)
    ensures Valid(CreateTicket(s, caller, eventId, code, uri).next)
  {
    if CreateTicket(s, caller, eventId, code, uri).outcome.Ok? {
      IssueKeepsValid(s, eventId, caller, DecodeTicketType(code).value, uri);
    }
  }

  lemma CreateTicketForPreservesValid(s: State, caller: Address, eventId: nat, to: Address, code: nat, uri: string)
    requires Valid(s)
    ensures Valid(CreateTicketFor(s, caller, eventId, to, code, uri).next)
  {
    if CreateTicketFor(s, caller, eventId, to, code, uri).outcome.Ok? {
      IssueKeepsValid(s, eventId, to, DecodeTicketType(code).value, uri);
    }
  }

  lemma UpdateTicketTypePreservesValid(s: State, caller: Address, eventId: nat, user: Address, code: nat)
    requires Valid(s)
    ensures Valid(UpdateTicketType(s, caller, eventId, user, code).next)
  {
    if UpdateTicketType(s, caller, eventId, user, code).outcome.Ok? {
      var tid := IndexOf(s, eventId, user);
      assert IndexedToken(s, eventId, user, tid);
      TicketRewriteKeepsValid(s, tid, s.tickets[tid].(ticketType := DecodeTicketType(code).value));
    }
  }

  lemma ResellTicketPreservesValid(s: State, caller: Address, eventId: nat, to: Address)
    requires Valid(s)
    ensures Valid(ResellTicket(s, caller, eventId, to).next)
  {
    if ResellTicket(s, caller, eventId, to).outcome.Ok? {
      var tid := IndexOf(s, eventId, caller);
      assert IndexedToken(s, eventId, caller, tid);
      assert ResellTicket(s, caller, eventId, to).next == Moved(s, eventId, caller, to, tid);
      MoveKeepsValid(s, eventId, caller, to, tid);
    }
  }

  lemma RemoveTicketPreservesValid(s: State, caller: Address, eventId: nat, user: Address)
    requires Valid(s)
    ensures Valid(RemoveTicket(s, caller, eventId, user).next)
  {
    if RemoveTicket(s, caller, eventId, user).outcome.Ok? {
      var tid := IndexOf(s, eventId, user);
      assert IndexedToken(s, eventId, user, tid);
      assert RemoveTicket(s, caller, eventId, user).next == Burned(s, eventId, user, tid);
      BurnKeepsValid(s, eventId, user, tid);
    }
  }

  lemma UseTicketPreservesValid(s: State, caller: Address, ticketId: nat)
    requires Valid(s)
    ensures Valid(UseTicket(s, caller, ticketId).next)
  {
    if UseTicket(s, caller, ticketId).outcome.Ok? {
      TicketRewriteKeepsValid(s, ticketId, s.tickets[ticketId].(used := true));
    }
  }

  lemma ApplyPreservesValid(s: State, caller: Address, now: nat, c: Call)
    requires Valid(s)
    ensures Valid(Apply(s, caller, now, c).next)
  {
    match c
    case CreateEventCall(name, endDate, uri) => CreateEventPreservesValid(s, caller, now, name, endDate, uri);
    case UpdateEventMetadataCall(e, uri) => UpdateEventMetadataPreservesValid(s, caller, now, e, uri);
    case CancelEventCall(e) => CancelEventPreservesValid(s, caller, e);
    case CreateTicketCall(e, code, uri) => CreateTicketPreservesValid(s, caller, e, code, uri);
    case CreateTicketForCall(e, to, code, uri) => CreateTicketForPreservesValid(s, caller, e, to, code, uri);
    case UpdateTicketTypeCall(e, user, code) => UpdateTicketTypePreservesValid(s, caller, e, user, code);
    case ResellTicketCall(e, to) => ResellTicketPreservesValid(s, caller, e, to);
    case RemoveTicketCall(e, user) => RemoveTicketPreservesValid(s, caller, e, user);
    case UseTicketCall(t) => UseTicketPreservesValid(s, caller, t);
    case TransferFromCall(from, to, t) =>
  }
}

=== FILE: ledger.dfy ===
/**
 * The ticketing contract's storage as a value, and each public operation as a
 * function from the storage before the call to the outcome and the storage
 * after it. A reverted call returns the storage it was given.
 *
 * Every operation checks its conditions in a fixed order and reports the first
 * one that fails; `caller` is the transaction sender and `now` the block time.
 */
module Ledger {
  import opened Domain

  /** Storage of the contract: two counters, the event and ticket tables, the ERC-721 owner and URI maps, and the index. */
  datatype State = State(
    eventCount: nat,
    ticketCount: nat,
    events: map<nat, Event>,
    tickets: map<nat, Ticket>,
    owners: map<nat, Address>,
    tokenURIs: map<nat, string>,
    ticketIdByEventAndOwner: map<(nat, Address), nat>)

  /** The result of one call: what it reports and the storage it leaves. */
  datatype Transition = Transition(outcome: Outcome, next: State)

  /** A freshly deployed contract. */
  const Deployed: State := State(0, 0, map[], map[], map[], map[], map[])

  /** Storage reads: a key never written yields the all-zero record, and index 0 means "no ticket". */
  function EventAt(s: State, eventId: nat): Event {
    if eventId in s.events then s.events[eventId] else NoEvent
  }

  function TicketAt(s: State, ticketId: nat): Ticket {
    if ticketId in s.tickets then s.tickets[ticketId] else NoTicket
  }

  function IndexOf(s: State, eventId: nat, owner: Address): nat {
    if (eventId, owner) in s.ticketIdByEventAndOwner then s.ticketIdByEventAndOwner[(eventId, owner)] else 0
  }

  /** What ERC-721 ownerOf yields: the owner, or the error it reverts with. */
  datatype OwnerLookup = Found(owner: Address) | Missing(error: Error)

  /** ERC-721 ownerOf: reverts for an id that is not currently minted. */
  function OwnerOf(s: State, ticketId: nat): OwnerLookup
  {
    if ticketId in s.owners then Found(s.owners[ticketId]) else Missing(NonexistentToken(ticketId))
  }

  /** ERC-721 tokenURI: reverts for an id that is not currently minted. */
  function TokenUri(s: State, ticketId: nat): Option<string> {
    if ticketId in s.owners && ticketId in s.tokenURIs then Some(s.tokenURIs[ticketId]) else None
  }

  /**
   * The storage invariant every operation keeps:
   *  - event ids are exactly 1..eventCount and ticket ids exactly 1..ticketCount, each record under its own id;
   *  - every ticket belongs to a stored event; every minted token is a stored ticket with a URI and a non-zero owner;
   *  - the index and the minted tokens are in one-to-one correspondence: a non-zero entry (e, a) names a token
   *    owned by a whose ticket belongs to e, and every minted token is named by the entry of its event and owner;
   *  - every event's organizer holds, through the index, an ORGANIZER ticket, and every ORGANIZER ticket is
   *    minted and owned by its event's organizer.
   */
  ghost predicate Valid(s: State) {
    && EventsDense(s)
    && TicketsDense(s)
    && TokensMinted(s)
    && IndexSound(s)
    && IndexComplete(s)
    && OrganizersHoldTickets(s)
    && OrganizerTicketsPinned(s)
  }

  ghost predicate EventsDense(s: State) {
    && (forall e :: e in s.events <==> 1 <= e <= s.eventCount)
    && (forall e :: e in s.events ==>
          s.events[e].id == e && s.events[e].eventExists && s.events[e].organizer != ZeroAddress)
  }

  ghost predicate TicketsDense(s: State) {
    && (forall t :: t in s.tickets <==> 1 <= t <= s.ticketCount)
    && (forall t :: t in s.tickets ==> s.tickets[t].id == t && s.tickets[t].eventId in s.events)
  }

  ghost predicate TokensMinted(s: State) {
    && s.tokenURIs.Keys == s.owners.Keys
    && (forall t :: t in s.owners ==> t in s.tickets && s.owners[t] != ZeroAddress)
  }

  ghost predicate IndexSound(s: State) {
    forall k :: k in s.ticketIdByEventAndOwner ==> IndexedToken(s, k.0, k.1, s.ticketIdByEventAndOwner[k])
  }

  ghost predicate IndexComplete(s: State)
    requires TokensMinted(s)
  {
    forall t :: t in s.owners ==> IndexOf(s, s.tickets[t].eventId, s.owners[t]) == t
  }

  ghost predicate OrganizersHoldTickets(s: State) {
    forall e {:trigger HoldsOrganizerTicket(s, e)} :: e in s.events ==> HoldsOrganizerTicket(s, e)
  }

  ghost predicate OrganizerTicketsPinned(s: State)
    requires TicketsDense(s)
  {
    forall t :: t in s.tickets && s.tickets[t].ticketType == Organizer ==>
      t in s.owners && s.owners[t] == s.events[s.tickets[t].eventId].organizer
  }

  /** Entry (eventId, owner) -> ticketId names a minted token of that owner for that event. */
  ghost predicate IndexedToken(s: State, eventId: nat, owner: Address, ticketId: nat) {
    ticketId in s.owners && ticketId in s.tickets &&
    s.owners[ticketId] == owner && s.tickets[ticketId].eventId == eventId
  }

  ghost predicate HoldsOrganizerTicket(s: State, eventId: nat)
    requires eventId in s.events
  {
    var tid := IndexOf(s, eventId, s.events[eventId].organizer);
    tid in s.tickets && s.tickets[tid].ticketType == Organizer
  }

  function Fail(s: State, e: Error): Transition {
    Transition(Err(e), s)
  }

  function Reject(s: State, reason: string): Transition {
    Transition(Err(Revert(reason)), s)
  }

  /** Allocates the next ticket id for `eventId`, mints it to `to` with `uri` and records it in the index. */
  function Issue(s: State, eventId: nat, to: Address, t: TicketType, uri: string): (s': State)
    ensures s'.ticketCount == s.ticketCount + 1
    ensures s'.events == s.events && s'.eventCount == s.eventCount
  {
    var tid := s.ticketCount + 1;
    s.(ticketCount := tid,
       tickets := s.tickets[tid := Ticket(tid, eventId, false, t)],
       owners := s.owners[tid := to],
       tokenURIs := s.tokenURIs[tid := uri],
       ticketIdByEventAndOwner := s.ticketIdByEventAndOwner[(eventId, to) := tid])
  }

  /** Hands the token `tid`, indexed at (e, from), to `to` and moves its index entry along. */
  function Moved(s: State, e: nat, from: Address, to: Address, tid: nat): State {
    s.(owners := s.owners[tid := to],
       ticketIdByEventAndOwner := (s.ticketIdByEventAndOwner - {(e, from)})[(e, to) := tid])
  }

  /** Burns the token `tid`, indexed at (e, user), with its URI and its index entry; the ticket record stays. */
  function Burned(s: State, e: nat, user: Address, tid: nat): State {
    s.(owners := s.owners - {tid},
       tokenURIs := s.tokenURIs - {tid},
       ticketIdByEventAndOwner := s.ticketIdByEventAndOwner - {(e, user)})
  }

  /** createEvent: any caller; the end date must lie after `now`; mints the organizer ticket. */
  function CreateEvent(s: State, caller: Address, now: nat, name: string, endDate: nat, metadataURI: string): Transition
  {
    if endDate <= now then Reject(s, EndDateNotFuture)
    else if caller == ZeroAddress then Fail(s, InvalidReceiver(caller))
    else
      var id := s.eventCount + 1;
      Transition(Ok(EventCreated(id, name, caller, endDate, metadataURI)),
                 Issue(Registered(s, caller, name, endDate, metadataURI), id, caller, Organizer, OrganizerUri(id)))
  }

  /** Stores the next event, organized by `caller`, before its organizer ticket is minted. */
  function Registered(s: State, caller: Address, name: string, endDate: nat, metadataURI: string): (s': State)
    ensures s'.eventCount == s.eventCount + 1
  {
    var id := s.eventCount + 1;
    s.(eventCount := id, events := s.events[id := Event(id, name, caller, endDate, metadataURI, true, false)])
  }

  /** updateEventMetadata: organizer only, not cancelled, and only while `now` is before the end date. */
  function UpdateEventMetadata(s: State, caller: Address, now: nat, eventId: nat, metadataURI: string): Transition
  {
    var ev := EventAt(s, eventId);
    if !ev.eventExists then Reject(s, EventNotFound)
    else if caller != ev.organizer then Reject(s, OnlyOrganizerMetadata)
    else if ev.cancelled then Reject(s, EventIsCancelled)
    else if now >= ev.endDate then Reject(s, EventHasEnded)
    else Transition(Ok(EventMetadataUpdated(eventId, metadataURI)),
                    s.(events := s.events[eventId := ev.(metadataURI := metadataURI)]))
  }

  /** cancelEvent: organizer only, once. */
  function CancelEvent(s: State, caller: Address, eventId: nat): Transition
  {
    var ev := EventAt(s, eventId);
    if !ev.eventExists then Reject(s, EventNotFound)
    else if caller != ev.organizer then Reject(s, OnlyOrganizerCancel)
    else if ev.cancelled then Reject(s, EventIsCancelled)
    else Transition(Ok(EventCancelled(eventId, caller)),
                    s.(events := s.events[eventId := ev.(cancelled := true)]))
  }

  /** createTicket: the caller takes a ticket for themselves; only the organizer may take VIP or STAFF. */
  function CreateTicket(s: State, caller: Address, eventId: nat, typeCode: nat, uri: string): Transition
  {
    match DecodeTicketType(typeCode)
    case None => Fail(s, EnumOutOfRange)
    case Some(t) =>
      var ev := EventAt(s, eventId);
      if !ev.eventExists then Reject(s, EventNotFound)
      else if ev.cancelled then Reject(s, EventIsCancelled)
      else if IsPrivileged(t) && caller != ev.organizer then Reject(s, OnlyOrganizerPrivileged)
      else if t == Organizer then Reject(s, InvalidTicketType)
      else if IndexOf(s, eventId, caller) != 0 then Reject(s, AlreadyHasTicket)
      else if caller == ZeroAddress then Fail(s, InvalidReceiver(caller))
      else Transition(Ok(TicketCreated(s.ticketCount + 1, eventId, caller, t)),
                      Issue(s, eventId, caller, t, uri))
  }

  /** createTicketFor: the organizer issues a VIP or STAFF ticket to `to`. */
  function CreateTicketFor(s: State, caller: Address, eventId: nat, to: Address, typeCode: nat, uri: string): Transition
  {
    match DecodeTicketType(typeCode)
    case None => Fail(s, EnumOutOfRange)
    case Some(t) =>
      var ev := EventAt(s, eventId);
      if !ev.eventExists then Reject(s, EventNotFound)
      else if caller != ev.organizer then Reject(s, OnlyOrganizerForOthers)
      else if !IsPrivileged(t) then Reject(s, OnlyPrivilegedForOthers)
      else if ev.cancelled then Reject(s, EventIsCancelled)
      else if IndexOf(s, eventId, to) != 0 then Reject(s, AlreadyHasTicket)
      else if to == ZeroAddress then Fail(s, InvalidReceiver(to))
      else Transition(Ok(TicketCreated(s.ticketCount + 1, eventId, to, t)),
                      Issue(s, eventId, to, t, uri))
  }

  /** updateTicketType: the organizer re-types `user`'s ticket to STANDARD, VIP or STAFF. */
  function UpdateTicketType(s: State, caller: Address, eventId: nat, user: Address, typeCode: nat): Transition
  {
    match DecodeTicketType(typeCode)
    case None => Fail(s, EnumOutOfRange)
    case Some(newType) =>
      var ev := EventAt(s, eventId);
      var tid := IndexOf(s, eventId, user);
      var tk := TicketAt(s, tid);
      if !ev.eventExists then Reject(s, EventNotFound)
      else if caller != ev.organizer then Reject(s, OnlyOrganizerUpdate)
      else if ev.cancelled then Reject(s, EventIsCancelled)
      else if newType == Organizer then Reject(s, InvalidTicketType)
      else if tid == 0 then Reject(s, UserHasNoTicket)
      else if tk.ticketType == Organizer then Reject(s, CannotModifyOrganizer)
      else if tk.used then Reject(s, TicketAlreadyUsed)
      else Transition(Ok(TicketTypeUpdated(tid, user, tk.ticketType, newType)),
                      s.(tickets := s.tickets[tid := tk.(ticketType := newType)]))
  }

  /** resellTicket: the caller hands their STANDARD ticket for `eventId` to `to`. */
  function ResellTicket(s: State, caller: Address, eventId: nat, to: Address): Transition
  {
    var ev := EventAt(s, eventId);
    var tid := IndexOf(s, eventId, caller);
    var tk := TicketAt(s, tid);
    if !ev.eventExists then Reject(s, EventNotFound)
    else if tid == 0 then Reject(s, CallerHasNoTicket)
    else if tk.ticketType != Standard then Reject(s, OnlyStandardResold)
    else if ev.cancelled then Reject(s, EventIsCancelled)
    else if IndexOf(s, eventId, to) != 0 then Reject(s, RecipientHasTicket)
    else if tk.used then Reject(s, TicketAlreadyUsed)
    else if to == ZeroAddress then Fail(s, InvalidReceiver(to))
    else Transition(Ok(TicketResold(tid, eventId, caller, to)), Moved(s, eventId, caller, to, tid))
  }

  /** removeTicket: the organizer burns `user`'s VIP or STAFF ticket. */
  function RemoveTicket(s: State, caller: Address, eventId: nat, user: Address): Transition
  {
    var ev := EventAt(s, eventId);
    var tid := IndexOf(s, eventId, user);
    var tk := TicketAt(s, tid);
    if !ev.eventExists then Reject(s, EventNotFound)
    else if caller != ev.organizer then Reject(s, OnlyOrganizerRemove)
    else if ev.cancelled then Reject(s, EventIsCancelled)
    else if tid == 0 then Reject(s, UserHasNoTicket)
    else if !IsPrivileged(tk.ticketType) then Reject(s, OnlyPrivilegedRemoved)
    else Transition(Ok(TicketRemoved(tid, eventId, user, tk.ticketType)), Burned(s, eventId, user, tid))
  }

  /** useTicket: the current owner redeems the ticket, once. */
  function UseTicket(s: State, caller: Address, ticketId: nat): Transition
  {
    var tk := TicketAt(s, ticketId);
    var ev := EventAt(s, tk.eventId);
    if ev.cancelled then Reject(s, EventIsCancelled)
    else if ticketId !in s.owners then Fail(s, NonexistentToken(ticketId))
    else if s.owners[ticketId] != caller then Reject(s, OnlyOwnerUse)
    else if tk.used then Reject(s, TicketAlreadyUsed)
    else Transition(Ok(TicketUsed(ticketId, caller)),
                    s.(tickets := s.tickets[ticketId := tk.(used := true)]))
  }

  /** transferFrom (and every other direct ERC-721 transfer): always refused. */
  function TransferFrom(s: State, caller: Address, from: Address, to: Address, ticketId: nat): Transition
  {
    Reject(s, TransfersDisabled)
  }

  /** One transaction against the contract. */
  datatype Call =
    | CreateEventCall(name: string, endDate: nat, metadataURI: string)
    | UpdateEventMetadataCall(eventId: nat, metadataURI: string)
    | CancelEventCall(eventId: nat)
    | CreateTicketCall(eventId: nat, typeCode: nat, uri: string)
    | CreateTicketForCall(eventId: nat, to: Address, typeCode: nat, uri: string)
    | UpdateTicketTypeCall(eventId: nat, user: Address, typeCode: nat)
    | ResellTicketCall(eventId: nat, to: Address)
    | RemoveTicketCall(eventId: nat, user: Address)
    | UseTicketCall(ticketId: nat)
    | TransferFromCall(from: Address, to: Address, ticketId: nat)

  function Apply(s: State, caller: Address, now: nat, c: Call): Transition {
    match c
    case CreateEventCall(name, endDate, uri) => CreateEvent(s, caller, now, name, endDate, uri)
    case UpdateEventMetadataCall(e, uri) => UpdateEventMetadata(s, caller, now, e, uri)
    case CancelEventCall(e) => CancelEvent(s, caller, e)
    case CreateTicketCall(e, code, uri) => CreateTicket(s, caller, e, code, uri)
    case CreateTicketForCall(e, to, code, uri) => CreateTicketFor(s, caller, e, to, code, uri)
    case UpdateTicketTypeCall(e, user, code) => UpdateTicketType(s, caller, e, user, code)
    case ResellTicketCall(e, to) => ResellTicket(s, caller, e, to)
    case RemoveTicketCall(e, user) => RemoveTicket(s, caller, e, user)
    case UseTicketCall(t) => UseTicket(s, caller, t)
    case TransferFromCall(from, to, t) => TransferFrom(s, caller, from, to, t)
  }
}

=== FILE: properties.dfy ===
/**
 * What the contract promises its users, stated over `Ledger` and proved from
 * the storage invariant: how each operation changes storage when it succeeds,
 * which reason it reports when it reverts, and what no sequence of calls can undo.
 */
module Properties {
  import opened Domain
  import opened Ledger
  import opened Invariant

  /*
   * Reading the invariant.
   */

  /** A non-zero index entry (e, a) names exactly the minted token that a owns for event e. */
  lemma IndexMatchesOwnership(s: State, eventId: nat, owner: Address, ticketId: nat)
    requires Valid(s) && ticketId != 0
    ensures IndexOf(s, eventId, owner) == ticketId <==>
              OwnerOf(s, ticketId) == Found(owner) && TicketAt(s, ticketId).eventId == eventId
  {
    if IndexOf(s, eventId, owner) == ticketId {
      assert IndexedToken(s, eventId, owner, s.ticketIdByEventAndOwner[(eventId, owner)]);
    }
  }

  /** No address owns two minted tickets for the same event. */
  lemma AtMostOneTicketPerEventAndOwner(s: State, t1: nat, t2: nat)
    requires Valid(s) && t1 in s.owners && t2 in s.owners
    requires s.tickets[t1].eventId == s.tickets[t2].eventId && s.owners[t1] == s.owners[t2]
    ensures t1 == t2
  {
    assert IndexOf(s, s.tickets[t1].eventId, s.owners[t1]) == t1;
    assert IndexOf(s, s.tickets[t2].eventId, s.owners[t2]) == t2;
  }

  /** Each stored event has exactly one ORGANIZER ticket: the one its organizer holds in the index. */
  lemma OneOrganizerTicketPerEvent(s: State, eventId: nat, t: nat)
    requires Valid(s) && eventId in s.events
    ensures t in s.tickets && s.tickets[t].eventId == eventId && s.tickets[t].ticketType == Organizer
            <==> t == IndexOf(s, eventId, s.events[eventId].organizer)
  {
    var org := s.events[eventId].organizer;
    var tid := IndexOf(s, eventId, org);
    assert HoldsOrganizerTicket(s, eventId);
    assert IndexedToken(s, eventId, org, s.ticketIdByEventAndOwner[(eventId, org)]);
    if t in s.tickets && s.tickets[t].eventId == eventId && s.tickets[t].ticketType == Organizer {
      assert IndexOf(s, s.tickets[t].eventId, s.owners[t]) == t;
    }
  }

  /*
   * createEvent (ticketing-backend/test/Ticketing.ts:46-83, 177-187).
   */

  lemma CreateEventStoresEventAndOrganizerTicket(
    s: State, caller: Address, now: nat, name: string, endDate: nat, uri: string)
    requires Valid(s) && endDate > now && caller != ZeroAddress
    ensures var r := CreateEvent(s, caller, now, name, endDate, uri);
      var id, tid := s.eventCount + 1, s.ticketCount + 1;
      && id !in s.events && tid !in s.tickets
      && r.outcome == Ok(EventCreated(id, name, caller, endDate, uri))
      && r.next.eventCount == id && r.next.ticketCount == tid
      && EventAt(r.next, id) == Event(id, name, caller, endDate, uri, true, false)
      && TicketAt(r.next, tid) == Ticket(tid, id, false, Organizer)
      && OwnerOf(r.next, tid) == Found(caller)
      && TokenUri(r.next, tid) == Some(OrganizerUri(id))
      && IndexOf(r.next, id, caller) == tid
      && (forall e :: e in s.events ==> EventAt(r.next, e) == s.events[e])
      && (forall t :: t in s.tickets ==> TicketAt(r.next, t) == s.tickets[t])
      && (forall t :: t != tid ==> OwnerOf(r.next, t) == OwnerOf(s, t) && TokenUri(r.next, t) == TokenUri(s, t))
      && (forall e: nat, a: Address :: (e, a) != (id, caller) ==> IndexOf(r.next, e, a) == IndexOf(s, e, a))
  {
    var id := s.eventCount + 1;
    assert id !in s.events && s.ticketCount + 1 !in s.tickets;
    IssueMintsNextTicket(Registered(s, caller, name, endDate, uri), id, caller, Organizer, OrganizerUri(id));
  }

  lemma CreateEventRejectsPastEndDate(s: State, caller: Address, now: nat, name: string, endDate: nat, uri: string)
    requires endDate <= now
    ensures CreateEvent(s, caller, now, name, endDate, uri) == Transition(Err(Revert(EndDateNotFuture)), s)
  {
  }

  /** Issuing stores and mints exactly the next ticket and leaves every other record, token and entry alone. */
  lemma IssueMintsNextTicket(s: State, eventId: nat, to: Address, t: TicketType, uri: string)
    ensures var s', tid := Issue(s, eventId, to, t, uri), s.ticketCount + 1;
      && TicketAt(s', tid) == Ticket(tid, eventId, false, t)
      && OwnerOf(s', tid) == Found(to) && TokenUri(s', tid) == Some(uri)
      && IndexOf(s', eventId, to) == tid
      && s'.events == s.events
      && (forall u :: u in s.tickets && u != tid ==> TicketAt(s', u) == s.tickets[u])
      && (forall u :: u != tid ==> OwnerOf(s', u) == OwnerOf(s, u) && TokenUri(s', u) == TokenUri(s, u))
      && (forall e: nat, a: Address :: (e, a) != (eventId, to) ==> IndexOf(s', e, a) == IndexOf(s, e, a))
  {
  }

  /*
   * createTicket (ticketing-backend/test/Ticketing.ts:166-251).
   */

  /**
   * createTicket succeeds exactly for a STANDARD request on a live event by a non-zero caller without a
   * ticket for it (the organizer always holds the ORGANIZER ticket, so VIP and STAFF never get through);
   * it then mints the next id to the caller and changes nothing else.
   */
  lemma CreateTicketMintsToCaller(s: State, caller: Address, eventId: nat, code: nat, uri: string)
    requires Valid(s)
    ensures CreateTicket(s, caller, eventId, code, uri).outcome.Ok? <==>
      && code == EncodeTicketType(Standard) && eventId in s.events && !s.events[eventId].cancelled
      && IndexOf(s, eventId, caller) == 0 && caller != ZeroAddress
    ensures var r := CreateTicket(s, caller, eventId, code, uri);
      var tid := s.ticketCount + 1;
      r.outcome.Ok? ==>
      && tid !in s.tickets
      && r.outcome.log == TicketCreated(tid, eventId, caller, Standard)
      && TicketAt(r.next, tid) == Ticket(tid, eventId, false, Standard)
      && OwnerOf(r.next, tid) == Found(caller) && TokenUri(r.next, tid) == Some(uri)
      && IndexOf(r.next, eventId, caller) == tid
      && r.next.events == s.events
      && (forall u :: u in s.tickets ==> TicketAt(r.next, u) == s.tickets[u])
      && (forall u :: u != tid ==> OwnerOf(r.next, u) == OwnerOf(s, u) && TokenUri(r.next, u) == TokenUri(s, u))
      && (forall e: nat, a: Address :: (e, a) != (eventId, caller) ==> IndexOf(r.next, e, a) == IndexOf(s, e, a))
  {
    var r := CreateTicket(s, caller, eventId, code, uri);
    CreateTicketSucceedsWhen(s, caller, eventId, code, uri);
    if r.outcome.Ok? {
      assert r.next == Issue(s, eventId, caller, Standard, uri);
      assert s.ticketCount + 1 !in s.tickets;
      IssueMintsNextTicket(s, eventId, caller, Standard, uri);
    }
  }

  lemma CreateTicketSucceedsWhen(s: State, caller: Address, eventId: nat, code: nat, uri: string)
    requires EventsDense(s) && TicketsDense(s) && OrganizersHoldTickets(s)
    ensures CreateTicket(s, caller, eventId, code, uri).outcome.Ok? <==>
      && code == EncodeTicketType(Standard) && eventId in s.events && !s.events[eventId].cancelled
      && IndexOf(s, eventId, caller) == 0 && caller != ZeroAddress
  {
    if eventId in s.events && caller == s.events[eventId].organizer {
      assert HoldsOrganizerTicket(s, eventId);
    }
  }

  /** Registering twice for the same event is refused. */
  lemma CreateTicketOncePerEvent(s: State, caller: Address, eventId: nat, code: nat, uri: string, code2: nat, uri2: string)
    requires CreateTicket(s, caller, eventId, code, uri).outcome.Ok?
    requires code2 == EncodeTicketType(Standard) || code2 == code
    ensures CreateTicket(CreateTicket(s, caller, eventId, code, uri).next, caller, eventId, code2, uri2)
            == Transition(Err(Revert(AlreadyHasTicket)), CreateTicket(s, caller, eventId, code, uri).next)
  {
  }

  /** One address may hold tickets for several events; each gets the next global id. */
  lemma TicketsForSeveralEvents(s: State, caller: Address, e1: nat, e2: nat, uri1: string, uri2: string)
    requires Valid(s) && e1 != e2 && e1 in s.events && e2 in s.events
    requires !s.events[e1].cancelled && !s.events[e2].cancelled
    requires IndexOf(s, e1, caller) == 0 && IndexOf(s, e2, caller) == 0 && caller != ZeroAddress
    ensures var r1 := CreateTicket(s, caller, e1, EncodeTicketType(Standard), uri1);
      var r2 := CreateTicket(r1.next, caller, e2, EncodeTicketType(Standard), uri2);
      && r1.outcome == Ok(TicketCreated(s.ticketCount + 1, e1, caller, Standard))
      && r2.outcome == Ok(TicketCreated(s.ticketCount + 2, e2, caller, Standard))
      && OwnerOf(r2.next, s.ticketCount + 1) == Found(caller) && OwnerOf(r2.next, s.ticketCount + 2) == Found(caller)
  {
  }

  /** The organizer already holds the ORGANIZER ticket, so they cannot take another one. */
  lemma OrganizerCannotCreateTicket(s: State, eventId: nat, code: nat, uri: string)
    requires Valid(s) && eventId in s.events && !s.events[eventId].cancelled && code < 3
    ensures CreateTicket(s, s.events[eventId].organizer, eventId, code, uri) == Reject(s, AlreadyHasTicket)
  {
    assert HoldsOrganizerTicket(s, eventId);
  }

  lemma CreateTicketPrivilegedNeedsOrganizer(s: State, caller: Address, eventId: nat, code: nat, uri: string)
    requires eventId in s.events && s.events[eventId].eventExists && !s.events[eventId].cancelled
    requires (code == EncodeTicketType(Vip) || code == EncodeTicketType(Staff)) && caller != s.events[eventId].organizer
    ensures CreateTicket(s, caller, eventId, code, uri) == Reject(s, OnlyOrganizerPrivileged)
  {
  }

  /*
   * createTicketFor (ticketing-backend/test/Ticketing.ts:255-290).
   */

  /** createTicketFor succeeds exactly for a VIP or STAFF ticket issued by the organizer of a live event to a
      non-zero address without a ticket, and then `to` owns the next id. */
  lemma CreateTicketForSucceedsIff(s: State, caller: Address, eventId: nat, to: Address, code: nat, uri: string)
    requires Valid(s)
    ensures var r := CreateTicketFor(s, caller, eventId, to, code, uri);
      r.outcome.Ok? <==>
        (code == 1 || code == 2) && eventId in s.events && caller == s.events[eventId].organizer &&
        !s.events[eventId].cancelled && IndexOf(s, eventId, to) == 0 && to != ZeroAddress
    ensures var r := CreateTicketFor(s, caller, eventId, to, code, uri);
      var tid := s.ticketCount + 1;
      r.outcome.Ok? ==>
        var t := DecodeTicketType(code).value;
        && tid !in s.tickets
        && r.outcome.log == TicketCreated(tid, eventId, to, t)
        && TicketAt(r.next, tid) == Ticket(tid, eventId, false, t)
        && OwnerOf(r.next, tid) == Found(to) && TokenUri(r.next, tid) == Some(uri)
        && IndexOf(r.next, eventId, to) == tid
        && r.next.events == s.events
        && (forall u :: u in s.tickets ==> TicketAt(r.next, u) == s.tickets[u])
        && (forall u :: u != tid ==> OwnerOf(r.next, u) == OwnerOf(s, u) && TokenUri(r.next, u) == TokenUri(s, u))
        && (forall e: nat, a: Address :: (e, a) != (eventId, to) ==> IndexOf(r.next, e, a) == IndexOf(s, e, a))
  {
    var r := CreateTicketFor(s, caller, eventId, to, code, uri);
    if r.outcome.Ok? {
      assert s.ticketCount + 1 !in s.tickets;
      IssueMintsNextTicket(s, eventId, to, DecodeTicketType(code).value, uri);
    }
  }

  lemma CreateTicketForRejections(s: State, caller: Address, eventId: nat, to: Address, code: nat, uri: string)
    requires eventId in s.events && s.events[eventId].eventExists && code < 4
    ensures caller != s.events[eventId].organizer ==>
              CreateTicketFor(s, caller, eventId, to, code, uri) == Reject(s, OnlyOrganizerForOthers)
    ensures caller == s.events[eventId].organizer && (code == 0 || code == 3) ==>
              CreateTicketFor(s, caller, eventId, to, code, uri) == Reject(s, OnlyPrivilegedForOthers)
  {
  }

  /*
   * updateTicketType (ticketing-backend/test/Ticketing.ts:294-382).
   */

  /**
   * The organizer of a live event re-types `user`'s unused, non-ORGANIZER ticket to STANDARD, VIP or STAFF
   * exactly when every check passes; the re-typing then changes only that ticket's type.
   */
  lemma UpdateTicketTypeChangesOnlyType(s: State, caller: Address, eventId: nat, user: Address, code: nat)
    requires Valid(s)
    ensures var tid := IndexOf(s, eventId, user);
      UpdateTicketType(s, caller, eventId, user, code).outcome.Ok? <==>
        && code < 3 && eventId in s.events && caller == s.events[eventId].organizer && !s.events[eventId].cancelled
        && tid != 0 && TicketAt(s, tid).ticketType != Organizer && !TicketAt(s, tid).used
    ensures var r := UpdateTicketType(s, caller, eventId, user, code);
      var tid := IndexOf(s, eventId, user);
      r.outcome.Ok? ==>
      var newType := DecodeTicketType(code).value;
      && tid in s.tickets && OwnerOf(s, tid) == Found(user)
      && caller == s.events[eventId].organizer
      && s.tickets[tid].ticketType != Organizer && newType != Organizer && !s.tickets[tid].used
      && r.outcome.log == TicketTypeUpdated(tid, user, s.tickets[tid].ticketType, newType)
      && r.next == s.(tickets := s.tickets[tid := s.tickets[tid].(ticketType := newType)])
  {
    if UpdateTicketType(s, caller, eventId, user, code).outcome.Ok? {
      assert IndexedToken(s, eventId, user, s.ticketIdByEventAndOwner[(eventId, user)]);
    }
  }

  lemma UpdateTicketTypeRejections(s: State, eventId: nat, user: Address, code: nat)
    requires Valid(s) && eventId in s.events && !s.events[eventId].cancelled
    ensures var org := s.events[eventId].organizer;
      && (code >= 4 ==> UpdateTicketType(s, org, eventId, user, code) == Fail(s, EnumOutOfRange))
      && (code == 3 ==> UpdateTicketType(s, org, eventId, user, code) == Reject(s, InvalidTicketType))
      && (code < 3 && user == org ==> UpdateTicketType(s, org, eventId, user, code) == Reject(s, CannotModifyOrganizer))
  {
    assert HoldsOrganizerTicket(s, eventId);
  }

  lemma UpdateTicketTypeNeedsOrganizer(s: State, caller: Address, eventId: nat, user: Address, code: nat)
    requires eventId in s.events && s.events[eventId].eventExists && code < 4
    requires caller != s.events[eventId].organizer
    ensures UpdateTicketType(s, caller, eventId, user, code) == Reject(s, OnlyOrganizerUpdate)
  {
  }

  /*
   * resellTicket (ticketing-backend/test/Ticketing.ts:392-466, 658-688).
   */

  /**
   * The holder of an unused STANDARD ticket for a live event resells it exactly when the recipient is a
   * non-zero address without a ticket for the event; the resale moves the token, the recipient's entry
   * and the seller's entry, and nothing else.
   */
  lemma ResellMovesTicket(s: State, caller: Address, eventId: nat, to: Address)
    requires Valid(s)
    ensures var tid := IndexOf(s, eventId, caller);
      ResellTicket(s, caller, eventId, to).outcome.Ok? <==>
        && eventId in s.events && !s.events[eventId].cancelled
        && tid != 0 && TicketAt(s, tid).ticketType == Standard && !TicketAt(s, tid).used
        && IndexOf(s, eventId, to) == 0 && to != ZeroAddress
    ensures var r := ResellTicket(s, caller, eventId, to);
      var tid := IndexOf(s, eventId, caller);
      r.outcome.Ok? ==>
      && tid != 0 && s.tickets[tid].ticketType == Standard && caller != to
      && r.outcome.log == TicketResold(tid, eventId, caller, to)
      && OwnerOf(s, tid) == Found(caller) && OwnerOf(r.next, tid) == Found(to)
      && IndexOf(r.next, eventId, to) == tid && IndexOf(r.next, eventId, caller) == 0
      && (forall e: nat, a: Address :: (e, a) != (eventId, caller) && (e, a) != (eventId, to) ==>
            IndexOf(r.next, e, a) == IndexOf(s, e, a))
      && r.next.tickets == s.tickets && r.next.events == s.events && r.next.tokenURIs == s.tokenURIs
      && r.next.eventCount == s.eventCount && r.next.ticketCount == s.ticketCount
      && (forall u :: u != tid ==> OwnerOf(r.next, u) == OwnerOf(s, u))
  {
    if ResellTicket(s, caller, eventId, to).outcome.Ok? {
      assert IndexedToken(s, eventId, caller, s.ticketIdByEventAndOwner[(eventId, caller)]);
    }
  }

  /** Only STANDARD tickets can be resold, whoever the recipient is and whatever else holds. */
  lemma ResellOnlyStandard(s: State, caller: Address, eventId: nat, to: Address)
    requires Valid(s) && eventId in s.events && IndexOf(s, eventId, caller) != 0
    requires TicketAt(s, IndexOf(s, eventId, caller)).ticketType != Standard
    ensures ResellTicket(s, caller, eventId, to) == Reject(s, OnlyStandardResold)
  {
  }

  lemma ResellRejections(s: State, caller: Address, eventId: nat, to: Address)
    requires Valid(s)
    ensures eventId !in s.events ==> ResellTicket(s, caller, eventId, to) == Reject(s, EventNotFound)
    ensures eventId in s.events && IndexOf(s, eventId, caller) == 0 ==>
              ResellTicket(s, caller, eventId, to) == Reject(s, CallerHasNoTicket)
    ensures eventId in s.events && !s.events[eventId].cancelled && IndexOf(s, eventId, caller) != 0 &&
            TicketAt(s, IndexOf(s, eventId, caller)).ticketType == Standard && IndexOf(s, eventId, to) != 0 ==>
              ResellTicket(s, caller, eventId, to) == Reject(s, RecipientHasTicket)
  {
  }

  /*
   * removeTicket (ticketing-backend/test/Ticketing.ts:516-589).
   */

  /**
   * The organizer of a live event removes `user`'s ticket exactly when it is VIP or STAFF; removal burns
   * that token (ownerOf and tokenURI then revert and the entry reads 0) and leaves every other token and
   * entry as it was.
   */
  lemma RemoveBurnsTicket(s: State, caller: Address, eventId: nat, user: Address)
    requires Valid(s)
    ensures var tid := IndexOf(s, eventId, user);
      RemoveTicket(s, caller, eventId, user).outcome.Ok? <==>
        && eventId in s.events && caller == s.events[eventId].organizer && !s.events[eventId].cancelled
        && tid != 0 && IsPrivileged(TicketAt(s, tid).ticketType)
    ensures var r := RemoveTicket(s, caller, eventId, user);
      var tid := IndexOf(s, eventId, user);
      r.outcome.Ok? ==>
      && tid != 0 && IsPrivileged(s.tickets[tid].ticketType) && caller == s.events[eventId].organizer
      && r.outcome.log == TicketRemoved(tid, eventId, user, s.tickets[tid].ticketType)
      && OwnerOf(s, tid) == Found(user)
      && OwnerOf(r.next, tid) == Missing(NonexistentToken(tid)) && TokenUri(r.next, tid) == None
      && IndexOf(r.next, eventId, user) == 0
      && r.next.tickets == s.tickets && r.next.ticketCount == s.ticketCount && r.next.events == s.events
      && (forall t :: t != tid ==> OwnerOf(r.next, t) == OwnerOf(s, t) && TokenUri(r.next, t) == TokenUri(s, t))
      && (forall e: nat, a: Address :: (e, a) != (eventId, user) ==> IndexOf(r.next, e, a) == IndexOf(s, e, a))
  {
    if RemoveTicket(s, caller, eventId, user).outcome.Ok? {
      assert IndexedToken(s, eventId, user, s.ticketIdByEventAndOwner[(eventId, user)]);
    }
  }

  lemma RemoveRejections(s: State, caller: Address, eventId: nat, user: Address)
    requires Valid(s)
    ensures eventId !in s.events ==> RemoveTicket(s, caller, eventId, user) == Reject(s, EventNotFound)
    ensures eventId in s.events && caller != s.events[eventId].organizer ==>
              RemoveTicket(s, caller, eventId, user) == Reject(s, OnlyOrganizerRemove)
    ensures eventId in s.events && caller == s.events[eventId].organizer && !s.events[eventId].cancelled ==>
              (IndexOf(s, eventId, user) == 0 ==> RemoveTicket(s, caller, eventId, user) == Reject(s, UserHasNoTicket)) &&
              (IndexOf(s, eventId, user) != 0 && !IsPrivileged(TicketAt(s, IndexOf(s, eventId, user)).ticketType) ==>
                 RemoveTicket(s, caller, eventId, user) == Reject(s, OnlyPrivilegedRemoved))
  {
  }

  /*
   * useTicket (ticketing-backend/test/Ticketing.ts:470-512).
   */

  /**
   * The current owner uses a minted ticket exactly when it is unused and its event is live; the use sets
   * `used` on that ticket and changes nothing else.
   */
  lemma UseTicketMarksUsed(s: State, caller: Address, ticketId: nat)
    requires Valid(s)
    ensures UseTicket(s, caller, ticketId).outcome.Ok? <==>
      && OwnerOf(s, ticketId) == Found(caller) && !TicketAt(s, ticketId).used
      && !EventAt(s, TicketAt(s, ticketId).eventId).cancelled
    ensures var r := UseTicket(s, caller, ticketId);
      r.outcome.Ok? ==>
      && OwnerOf(s, ticketId) == Found(caller) && !s.tickets[ticketId].used
      && r.outcome.log == TicketUsed(ticketId, caller)
      && r.next.tickets == s.tickets[ticketId := s.tickets[ticketId].(used := true)]
      && r.next.owners == s.owners && r.next.tokenURIs == s.tokenURIs
      && r.next.ticketIdByEventAndOwner == s.ticketIdByEventAndOwner && r.next.events == s.events
  {
  }

  /** A ticket is used at most once: after a successful use, every further use reverts. */
  lemma UseTicketOnce(s: State, caller: Address, ticketId: nat, caller2: Address)
    requires UseTicket(s, caller, ticketId).outcome.Ok?
    ensures UseTicket(UseTicket(s, caller, ticketId).next, caller2, ticketId).outcome.Err?
  {
  }

  lemma UseTicketOnlyOwner(s: State, caller: Address, ticketId: nat)
    requires Valid(s) && ticketId in s.owners && s.owners[ticketId] != caller
    requires !s.events[s.tickets[ticketId].eventId].cancelled
    ensures UseTicket(s, caller, ticketId) == Reject(s, OnlyOwnerUse)
  {
  }

  /*
   * updateEventMetadata and cancelEvent (ticketing-backend/test/Ticketing.ts:87-162).
   */

  lemma UpdateEventMetadataBehaviour(s: State, caller: Address, now: nat, eventId: nat, uri: string)
    requires Valid(s) && eventId in s.events
    ensures var r := UpdateEventMetadata(s, caller, now, eventId, uri);
      var ev := s.events[eventId];
      && (caller != ev.organizer ==> r == Reject(s, OnlyOrganizerMetadata))
      && (caller == ev.organizer && ev.cancelled ==> r == Reject(s, EventIsCancelled))
      && (caller == ev.organizer && !ev.cancelled && now >= ev.endDate ==> r == Reject(s, EventHasEnded))
      && (caller == ev.organizer && !ev.cancelled && now < ev.endDate ==>
            r.outcome == Ok(EventMetadataUpdated(eventId, uri)) &&
            EventAt(r.next, eventId) == ev.(metadataURI := uri) &&
            r.next == s.(events := s.events[eventId := ev.(metadataURI := uri)]))
  {
  }

  lemma CancelEventBehaviour(s: State, caller: Address, eventId: nat)
    requires Valid(s) && eventId in s.events
    ensures var r := CancelEvent(s, caller, eventId);
      var ev := s.events[eventId];
      && (caller != ev.organizer ==> r == Reject(s, OnlyOrganizerCancel))
      && (caller == ev.organizer && ev.cancelled ==> r == Reject(s, EventIsCancelled))
      && (caller == ev.organizer && !ev.cancelled ==>
            r.outcome == Ok(EventCancelled(eventId, ev.organizer)) &&
            EventAt(r.next, eventId) == ev.(cancelled := true) &&
            r.next == s.(events := s.events[eventId := ev.(cancelled := true)]))
  {
  }

  /*
   * Cancellation freezes an event (ticketing-backend/test/Ticketing.ts:106-114, 154-162, 243-251,
   * 282-290, 373-382, 457-466, 503-512, 580-589).
   */

  /** The event a call acts on: its eventId argument, or for useTicket the event of the ticket. */
  function TargetEvent(s: State, c: Call): Option<nat> {
    match c
    case CreateEventCall(_, _, _) => None
    case UpdateEventMetadataCall(e, _) => Some(e)
    case CancelEventCall(e) => Some(e)
    case CreateTicketCall(e, _, _) => Some(e)
    case CreateTicketForCall(e, _, _, _) => Some(e)
    case UpdateTicketTypeCall(e, _, _) => Some(e)
    case ResellTicketCall(e, _) => Some(e)
    case RemoveTicketCall(e, _) => Some(e)
    case UseTicketCall(t) => Some(TicketAt(s, t).eventId)
    case TransferFromCall(_, _, _) => None
  }

  /** Every call aimed at a cancelled event reverts and leaves storage as it was. */
  lemma CancelledEventIsFrozen(s: State, caller: Address, now: nat, c: Call)
    requires Valid(s)
    requires TargetEvent(s, c).Some? && EventAt(s, TargetEvent(s, c).value).cancelled
    ensures Apply(s, caller, now, c) == Transition(Apply(s, caller, now, c).outcome, s)
    ensures Apply(s, caller, now, c).outcome.Err?
  {
  }

  /** The reason is "Event is cancelled." whenever the caller passes the checks that come before it. */
  lemma CancelledEventReason(s: State, caller: Address, now: nat, eventId: nat, user: Address, code: nat, uri: string)
    requires Valid(s) && eventId in s.events && s.events[eventId].cancelled
    ensures var org := s.events[eventId].organizer;
      && UpdateEventMetadata(s, org, now, eventId, uri) == Reject(s, EventIsCancelled)
      && CancelEvent(s, org, eventId) == Reject(s, EventIsCancelled)
      && (code < 4 ==> CreateTicket(s, caller, eventId, code, uri) == Reject(s, EventIsCancelled))
      && (code == 1 || code == 2 ==> CreateTicketFor(s, org, eventId, user, code, uri) == Reject(s, EventIsCancelled))
      && (code < 4 ==> UpdateTicketType(s, org, eventId, user, code) == Reject(s, EventIsCancelled))
      && RemoveTicket(s, org, eventId, user) == Reject(s, EventIsCancelled)
      && (IndexOf(s, eventId, caller) != 0 && TicketAt(s, IndexOf(s, eventId, caller)).ticketType == Standard ==>
            ResellTicket(s, caller, eventId, user) == Reject(s, EventIsCancelled))
  {
  }

  lemma UseTicketOfCancelledEvent(s: State, caller: Address, ticketId: nat)
    requires Valid(s) && ticketId in s.tickets && s.events[s.tickets[ticketId].eventId].cancelled
    ensures UseTicket(s, caller, ticketId) == Reject(s, EventIsCancelled)
  {
  }

  /*
   * Direct transfers (ticketing-backend/test/Ticketing.ts:647-656).
   */

  lemma TransferFromAlwaysReverts(s: State, caller: Address, from: Address, to: Address, ticketId: nat)
    ensures TransferFrom(s, caller, from, to, ticketId) == Transition(Err(Revert(TransfersDisabled)), s)
  {
  }
}

=== FILE: scenarios.dfy ===
/**
 * The contract's test suites replayed against the `Ticketing` class: each
 * client method deploys an instance, runs the suite's setup (event 1, "Concert A",
 * created by Owner an hour ahead), then performs the calls of one `it` block
 * and asserts what that block expects.
 */
module Scenarios {
  import opened Domain
  import Ledger
  import opened Contract

  const Owner: Address := 1
  const Other: Address := 2
  const Buyer: Address := 3

  const Now: nat := 100000
  const FutureDate: nat := Now + 3600
  const PastDate: nat := Now - 3600

  const InitialMetadata := "ipfs://initialmetadatahash"
  const UpdatedMetadata := "ipfs://updatedmetadatahash"
  const StandardUri := "ipfs://standardtickethash"
  const VipUri := "ipfs://viptickethash"
  const StaffUri := "ipfs://stafftickethash"

  const StandardCode: nat := 0
  const VipCode: nat := 1
  const StaffCode: nat := 2
  const OrganizerCode: nat := 3
  const UnknownCode: nat := 99

  /** Storage after the setup: event 1 and its ORGANIZER ticket 1, owned by Owner. */
  const Setup: Ledger.State := Ledger.State(
    1, 1,
    map[1 := Event(1, "Concert A", Owner, FutureDate, InitialMetadata, true, false)],
    map[1 := Ticket(1, 1, false, Organizer)],
    map[1 := Owner],
    map[1 := "organizer-1.json"],
    map[(1, Owner) := 1])

  /** Deploys the contract and creates event 1 as Owner. */
  method BeforeEach() returns (c: Ticketing)
    ensures fresh(c) && c.Valid()
    ensures c.Snapshot() == Setup
  {
    c := new Ticketing();
    assert OrganizerUri(1) == "organizer-1.json" by {
      assert DecimalString(1) == "1";
    }
    var r := c.CreateEvent(Owner, Now, "Concert A", FutureDate, InitialMetadata);
    assert r == Ok(EventCreated(1, "Concert A", Owner, FutureDate, InitialMetadata));
  }

  /** Storage once Other holds ticket 2 of type `t` for event 1. */
  function WithTicket(t: TicketType, uri: string): Ledger.State {
    Setup.(ticketCount := 2,
           tickets := Setup.tickets[2 := Ticket(2, 1, false, t)],
           owners := Setup.owners[2 := Other],
           tokenURIs := Setup.tokenURIs[2 := uri],
           ticketIdByEventAndOwner := Setup.ticketIdByEventAndOwner[(1, Other) := 2])
  }

  /** Given: Other takes a STANDARD ticket for event 1. */
  method OtherBuysStandard() returns (c: Ticketing)
    ensures fresh(c) && c.Valid()
    ensures c.Snapshot() == WithTicket(Standard, StandardUri)
  {
    c := BeforeEach();
    var r := c.CreateTicket(Other, 1, StandardCode, StandardUri);
    assert r.Ok?;
  }

  /** Given: the organizer issues Other a VIP or STAFF ticket for event 1. */
  method OrganizerIssues(code: nat, uri: string) returns (c: Ticketing)
    requires code == VipCode || code == StaffCode
    ensures fresh(c) && c.Valid()
    ensures c.Snapshot() == WithTicket(DecodeTicketType(code).value, uri)
  {
    c := BeforeEach();
    var r := c.CreateTicketFor(Owner, 1, Other, code, uri);
    assert r.Ok?;
  }

  /* createEvent (ticketing-backend/test/Ticketing.ts:45-84). */

  method CreatesEventWithFutureEndDate() {
    var c := BeforeEach();
    assert OrganizerUri(2) == "organizer-2.json" by {
      assert DecimalString(2) == "2";
    }
    var r := c.CreateEvent(Owner, Now, "Concert C", FutureDate, InitialMetadata);
    assert r == Ok(EventCreated(2, "Concert C", Owner, FutureDate, InitialMetadata));
    assert c.EventAt(2) == Event(2, "Concert C", Owner, FutureDate, InitialMetadata, true, false);
    assert c.TicketIdOf(2, Owner) == 2 && c.tokenURIs[2] == "organizer-2.json";
  }

  method RejectsPastEndDate() {
    var c := BeforeEach();
    var r := c.CreateEvent(Owner, Now, "Concert C", PastDate, InitialMetadata);
    assert r == Err(Revert("End date must be in the future.")) && c.Snapshot() == Setup;
  }

  method CreatorIsOrganizer() {
    var c := BeforeEach();
    assert c.EventAt(1).organizer == Owner;
    assert c.tokenURIs[c.TicketIdOf(1, Owner)] == "organizer-1.json";
  }

  /* updateEventMetadata (ticketing-backend/test/Ticketing.ts:86-127). */

  method OrganizerUpdatesMetadata() {
    var c := BeforeEach();
    assert c.EventAt(1).metadataURI == InitialMetadata;
    var r := c.UpdateEventMetadata(Owner, Now, 1, UpdatedMetadata);
    assert r == Ok(EventMetadataUpdated(1, UpdatedMetadata)) && c.EventAt(1).metadataURI == UpdatedMetadata;
  }

  method NonOrganizerCannotUpdateMetadata() {
    var c := BeforeEach();
    var r := c.UpdateEventMetadata(Other, Now, 1, InitialMetadata);
    assert r == Err(Revert("Only organizer can update metadata."));
  }

  method NoMetadataUpdateAfterCancel() {
    var c := BeforeEach();
    var r := c.CancelEvent(Owner, 1);
    r := c.UpdateEventMetadata(Owner, Now, 1, InitialMetadata);
    assert r == Err(Revert("Event is cancelled."));
  }

  method NoMetadataUpdateAfterEnd() {
    var c := BeforeEach();
    var r := c.UpdateEventMetadata(Owner, FutureDate + 1, 1, InitialMetadata);
    assert r == Err(Revert("Event has already ended."));
  }

  /* cancelEvent (ticketing-backend/test/Ticketing.ts:129-163). */

  method OrganizerCancels() {
    var c := BeforeEach();
    var r := c.CancelEvent(Owner, 1);
    assert r == Ok(EventCancelled(1, Owner)) && c.EventAt(1).cancelled;
  }

  method NonOrganizerCannotCancel() {
    var c := BeforeEach();
    var r := c.CancelEvent(Other, 1);
    assert r == Err(Revert("Only organizer can cancel event."));
  }

  method CannotCancelTwice() {
    var c := BeforeEach();
    var r := c.CancelEvent(Owner, 1);
    r := c.CancelEvent(Owner, 1);
    assert r == Err(Revert("Event is cancelled."));
  }

  /* createTicket (ticketing-backend/test/Ticketing.ts:165-252). */

  method CreatesTicketForCaller() {
    var c := BeforeEach();
    var r := c.CreateTicket(Other, 1, StandardCode, StandardUri);
    assert r == Ok(TicketCreated(2, 1, Other, Standard));
    assert c.TicketAt(2).id == 2 && c.owners[2] == Other && c.tokenURIs[2] == StandardUri;
  }

  method CreatorHoldsOrganizerTicket() {
    var c := BeforeEach();
    assert c.owners[1] == Owner && c.TicketAt(1).ticketType == Organizer && c.tokenURIs[1] == "organizer-1.json";
  }

  method OrganizerCannotTakeAnotherTicket() {
    var c := BeforeEach();
    var r := c.CreateTicket(Owner, 1, StandardCode, StandardUri);
    assert r == Err(Revert("User already has a ticket for this event."));
  }

  method RegistersOncePerEvent() {
    var c := OtherBuysStandard();
    var r := c.CreateTicket(Other, 1, StandardCode, StandardUri);
    assert r == Err(Revert("User already has a ticket for this event."));
  }

  method NonOrganizerCannotTakePrivileged() {
    var c := BeforeEach();
    var r := c.CreateTicket(Other, 1, VipCode, VipUri);
    assert r == Err(Revert("Only the event organizer can create VIP or STAFF tickets."));
    r := c.CreateTicket(Other, 1, StaffCode, StaffUri);
    assert r == Err(Revert("Only the event organizer can create VIP or STAFF tickets."));
  }

  method NoTicketForCancelledEvent() {
    var c := BeforeEach();
    var r := c.CancelEvent(Owner, 1);
    r := c.CreateTicket(Other, 1, StandardCode, StandardUri);
    assert r == Err(Revert("Event is cancelled."));
  }

  /* createTicketFor (ticketing-backend/test/Ticketing.ts:254-291). */

  method OrganizerIssuesVip() {
    var c := BeforeEach();
    var r := c.CreateTicketFor(Owner, 1, Other, VipCode, VipUri);
    assert r == Ok(TicketCreated(2, 1, Other, Vip));
    assert c.owners[2] == Other && c.TicketAt(2).ticketType == Vip && c.tokenURIs[2] == VipUri;
  }

  method NonOrganizerCannotIssue() {
    var c := BeforeEach();
    var r := c.CreateTicketFor(Other, 1, Owner, VipCode, VipUri);
    assert r == Err(Revert("Only organizer can create tickets for others."));
  }

  method CannotIssueStandard() {
    var c := BeforeEach();
    var r := c.CreateTicketFor(Owner, 1, Other, StandardCode, StandardUri);
    assert r == Err(Revert("Only VIP or STAFF tickets can be created for others."));
  }

  method NoIssueForCancelledEvent() {
    var c := BeforeEach();
    var r := c.CancelEvent(Owner, 1);
    r := c.CreateTicketFor(Owner, 1, Other, VipCode, VipUri);
    assert r == Err(Revert("Event is cancelled."));
  }

  /* updateTicketType (ticketing-backend/test/Ticketing.ts:293-383). */

  method UpgradesStandardToVip() {
    var c := OtherBuysStandard();
    var r := c.UpdateTicketType(Owner, 1, Other, VipCode);
    assert r == Ok(TicketTypeUpdated(2, Other, Standard, Vip));
    assert c.TicketAt(c.TicketIdOf(1, Other)).ticketType == Vip;
  }

  method DowngradesVipToStandard() {
    var c := OrganizerIssues(VipCode, VipUri);
    var r := c.UpdateTicketType(Owner, 1, Other, StandardCode);
    assert r.Ok? && c.TicketAt(c.TicketIdOf(1, Other)).ticketType == Standard;
  }

  method CannotRetypeToOrganizer() {
    var c := OtherBuysStandard();
    var r := c.UpdateTicketType(Owner, 1, Other, OrganizerCode);
    assert r == Err(Revert("Invalid ticket type."));
  }

  method NonOrganizerCannotRetype() {
    var c := OtherBuysStandard();
    var r := c.UpdateTicketType(Other, 1, Other, VipCode);
    assert r == Err(Revert("Only organizer can update tickets."));
  }

  method CannotRetypeOrganizerTicket() {
    var c := BeforeEach();
    assert c.TicketAt(c.TicketIdOf(1, Owner)).ticketType == Organizer;
    var r := c.UpdateTicketType(Owner, 1, Owner, StandardCode);
    assert r == Err(Revert("Cannot modify organizer ticket."));
  }

  method RejectsUnknownType() {
    var c := OtherBuysStandard();
    var r := c.UpdateTicketType(Owner, 1, Other, UnknownCode);
    assert r.Err?;
  }

  method NoRetypeForCancelledEvent() {
    var c := OtherBuysStandard();
    var r := c.CancelEvent(Owner, 1);
    r := c.UpdateTicketType(Owner, 1, Other, VipCode);
    assert r == Err(Revert("Event is cancelled."));
  }

  /* resellTicket (ticketing-backend/test/Ticketing.ts:385-467). */

  method ResellsStandardTicket() {
    var c := OtherBuysStandard();
    var ticketId := c.TicketIdOf(1, Other);
    var r := c.ResellTicket(Other, 1, Buyer);
    assert r == Ok(TicketResold(ticketId, 1, Other, Buyer));
    assert c.owners[ticketId] == Buyer && c.TicketIdOf(1, Buyer) == ticketId && c.TicketIdOf(1, Other) == 0;
  }

  method CannotResellVip() {
    var c := OrganizerIssues(VipCode, VipUri);
    var r := c.ResellTicket(Other, 1, Buyer);
    assert r == Err(Revert("Only STANDARD tickets can be resold."));
  }

  method CannotResellStaff() {
    var c := OrganizerIssues(StaffCode, StaffUri);
    var r := c.ResellTicket(Other, 1, Buyer);
    assert r == Err(Revert("Only STANDARD tickets can be resold."));
  }

  method CannotResellForUnknownEvent() {
    var c := BeforeEach();
    var r := c.ResellTicket(Other, 999, Buyer);
    assert r == Err(Revert("Event does not exist."));
  }

  method CannotResellWithoutTicket() {
    var c := OtherBuysStandard();
    var r := c.ResellTicket(Buyer, 1, Owner);
    assert r == Err(Revert("You do not own a ticket for this event."));
  }

  method NoResaleForCancelledEvent() {
    var c := OtherBuysStandard();
    var r := c.CancelEvent(Owner, 1);
    r := c.ResellTicket(Other, 1, Owner);
    assert r == Err(Revert("Event is cancelled."));
  }

  /* useTicket (ticketing-backend/test/Ticketing.ts:469-513). */

  method OwnerUsesTicket() {
    var c := OtherBuysStandard();
    var r := c.UseTicket(Other, 2);
    assert r == Ok(TicketUsed(2, Other));
    assert c.TicketAt(2).used && c.owners[2] == Other;
  }

  method NonOwnerCannotUse() {
    var c := OtherBuysStandard();
    var r := c.UseTicket(Owner, 2);
    assert r == Err(Revert("Only the ticket owner can use the ticket."));
  }

  method NoUseForCancelledEvent() {
    var c := OtherBuysStandard();
    var r := c.CancelEvent(Owner, 1);
    r := c.UseTicket(Other, 2);
    assert r == Err(Revert("Event is cancelled."));
  }

  /* removeTicket (ticketing-backend/test/Ticketing.ts:515-590). */

  method RemovesVipTicket() {
    var c := OrganizerIssues(VipCode, VipUri);
    var ticketId := c.TicketIdOf(1, Other);
    var r := c.RemoveTicket(Owner, 1, Other);
    assert r == Ok(TicketRemoved(ticketId, 1, Other, Vip));
    assert Ledger.OwnerOf(c.Snapshot(), ticketId).Missing? && c.TicketIdOf(1, Other) == 0;
  }

  method RemovesStaffTicket() {
    var c := OrganizerIssues(StaffCode, StaffUri);
    var ticketId := c.TicketIdOf(1, Other);
    var r := c.RemoveTicket(Owner, 1, Other);
    assert r == Ok(TicketRemoved(ticketId, 1, Other, Staff));
    assert Ledger.OwnerOf(c.Snapshot(), ticketId).Missing? && c.TicketIdOf(1, Other) == 0;
  }

  method CannotRemoveStandard() {
    var c := OtherBuysStandard();
    var r := c.RemoveTicket(Owner, 1, Other);
    assert r == Err(Revert("Only VIP or STAFF tickets can be removed by organizer."));
  }

  method NonOrganizerCannotRemove() {
    var c := OrganizerIssues(VipCode, VipUri);
    var r := c.RemoveTicket(Other, 1, Other);
    assert r == Err(Revert("Only organizer can remove tickets."));
  }

  method CannotRemoveForUnknownEvent() {
    var c := BeforeEach();
    var r := c.RemoveTicket(Owner, 999, Other);
    assert r == Err(Revert("Event does not exist."));
  }

  method CannotRemoveMissingTicket() {
    var c := BeforeEach();
    var r := c.RemoveTicket(Owner, 1, Other);
    assert r == Err(Revert("User does not have a ticket for this event."));
  }

  method NoRemovalForCancelledEvent() {
    var c := OrganizerIssues(VipCode, VipUri);
    var r := c.CancelEvent(Owner, 1);
    r := c.RemoveTicket(Owner, 1, Other);
    assert r == Err(Revert("Event is cancelled."));
  }

  /* NFT minting and transfer restrictions (ticketing-backend/test/Ticketing.ts:592-689). */

  method DirectTransferRefused() {
    var c := OtherBuysStandard();
    var ticketId := c.TicketIdOf(1, Other);
    var r := c.TransferFrom(Other, Other, Owner, ticketId);
    assert r == Err(Revert("Direct NFT transfers are disabled."));
  }

  method ResaleIsTheWayToTransfer() {
    var c := OtherBuysStandard();
    var r := c.ResellTicket(Other, 1, Buyer);
    var ticketId := c.TicketIdOf(1, Buyer);
    assert c.owners[ticketId] == Buyer;
  }

  method ResaleToOrganizerRefused() {
    var c := OtherBuysStandard();
    var r := c.ResellTicket(Other, 1, Owner);
    assert r == Err(Revert("Recipient already has a ticket for this event."));
  }

  /*
   * Tests that make two calls after their setup, stated over the storage values.
   */

  /** Other registers to events 1 and 2 and gets tickets 3 and 4 (ticketing-backend/test/Ticketing.ts:206-220). */
  lemma RegistersToMultipleEvents()
    ensures var s1 := Ledger.CreateEvent(Setup, Owner, Now, "Concert B", FutureDate, InitialMetadata).next;
      var r3 := Ledger.CreateTicket(s1, Other, 1, StandardCode, StandardUri);
      var r4 := Ledger.CreateTicket(r3.next, Other, 2, StandardCode, StandardUri);
      && r3.outcome == Ok(TicketCreated(3, 1, Other, Standard))
      && r4.outcome == Ok(TicketCreated(4, 2, Other, Standard))
      && Ledger.OwnerOf(r4.next, 3) == Ledger.Found(Other) && Ledger.OwnerOf(r4.next, 4) == Ledger.Found(Other)
  {
  }

  /** Resale to an address that bought its own ticket is refused (ticketing-backend/test/Ticketing.ts:429-438). */
  lemma CannotResellToTicketHolder()
    ensures var s := Ledger.CreateTicket(WithTicket(Standard, StandardUri), Buyer, 1, StandardCode, StandardUri).next;
      Ledger.ResellTicket(s, Other, 1, Buyer) == Ledger.Reject(s, "Recipient already has a ticket for this event.")
  {
  }

  /** The token id is the ticket id and carries the URI given at creation (ticketing-backend/test/Ticketing.ts:593-636). */
  lemma MintsWithTicketUri()
    ensures var s1 := Ledger.CreateEvent(Setup, Owner, Now, "My Event", FutureDate, InitialMetadata).next;
      var s := Ledger.CreateTicket(s1, Other, 1, StandardCode, "ipfs://standard-1.json").next;
      var ticketId := Ledger.IndexOf(s, 1, Other);
      && Ledger.TicketAt(s, ticketId).id == ticketId
      && Ledger.OwnerOf(s, ticketId) == Ledger.Found(Other)
      && Ledger.TokenUri(s, ticketId) == Some("ipfs://standard-1.json")
      && Ledger.TokenUri(s, Ledger.IndexOf(s, 1, Owner)) == Some("organizer-1.json")
  {
  }
}

=== FILE: ticketing.dfy ===
/**
 * The deployed contract: storage as mutable fields and one method per public
 * operation. Each method performs its checks in order, returns on the first
 * that fails (storage untouched), otherwise writes storage and returns the
 * record it emits. Each is proved to behave exactly as the `Ledger` function of
 * the same name and to keep the storage invariant.
 */
module Contract {
  import opened Domain
  import Ledger
  import Invariant

  class Ticketing {
    var eventCount: nat
    var ticketCount: nat
    var events: map<nat, Event>
    var tickets: map<nat, Ticket>
    var owners: map<nat, Address>
    var tokenURIs: map<nat, string>
    var ticketIdByEventAndOwner: map<(nat, Address), nat>

    /** The current storage as a value. */
    function Snapshot(): Ledger.State
      reads this
    {
      Ledger.State(eventCount, ticketCount, events, tickets, owners, tokenURIs, ticketIdByEventAndOwner)
    }

    ghost predicate Valid()
      reads this
    {
      Ledger.Valid(Snapshot())
    }

    /** Deployment: no events and no tickets. */
    constructor ()
      ensures Snapshot() == Ledger.Deployed
      ensures Valid()
    {
      eventCount, ticketCount := 0, 0;
      events, tickets := map[], map[];
      owners, tokenURIs := map[], map[];
      ticketIdByEventAndOwner := map[];
      Invariant.DeployedValid();
    }

    /** Storage reads with the mapping defaults. */
    function EventAt(eventId: nat): Event
      reads this
    {
      Ledger.EventAt(Snapshot(), eventId)
    }

    function TicketAt(ticketId: nat): Ticket
      reads this
    {
      Ledger.TicketAt(Snapshot(), ticketId)
    }

    function TicketIdOf(eventId: nat, owner: Address): nat
      reads this
    {
      Ledger.IndexOf(Snapshot(), eventId, owner)
    }

    /** Mints the next ticket id to `to` and records it in the index. */
    method Mint(eventId: nat, to: Address, t: TicketType, uri: string) returns (ticketId: nat)
      modifies this
      ensures ticketId == old(ticketCount) + 1
      ensures Snapshot() == Ledger.Issue(old(Snapshot()), eventId, to, t, uri)
    {
      ticketCount := ticketCount + 1;
      ticketId := ticketCount;
      tickets := tickets[ticketId := Ticket(ticketId, eventId, false, t)];
      owners := owners[ticketId := to];
      tokenURIs := tokenURIs[ticketId := uri];
      ticketIdByEventAndOwner := ticketIdByEventAndOwner[(eventId, to) := ticketId];
    }

    method CreateEvent(caller: Address, now: nat, name: string, endDate: nat, metadataURI: string)
      returns (r: Outcome)
      requires Valid()
      modifies this
      ensures Valid()
      ensures Ledger.Transition(r, Snapshot()) == Ledger.CreateEvent(old(Snapshot()), caller, now, name, endDate, metadataURI)
    {
      ghost var s := Snapshot();
      Invariant.CreateEventPreservesValid(s, caller, now, name, endDate, metadataURI);
      if endDate <= now {
        return Err(Revert(EndDateNotFuture));
      }
      if caller == ZeroAddress {
        return Err(InvalidReceiver(caller));
      }
      eventCount := eventCount + 1;
      var id := eventCount;
      events := events[id := Event(id, name, caller, endDate, metadataURI, true, false)];
      assert Snapshot() == Ledger.Registered(s, caller, name, endDate, metadataURI);
      var _ := Mint(id, caller, Organizer, OrganizerUri(id));
      r := Ok(EventCreated(id, name, caller, endDate, metadataURI));
    }

    method UpdateEventMetadata(caller: Address, now: nat, eventId: nat, metadataURI: string) returns (r: Outcome)
      requires Valid()
      modifies this
      ensures Valid()
      ensures Ledger.Transition(r, Snapshot()) == Ledger.UpdateEventMetadata(old(Snapshot()), caller, now, eventId, metadataURI)
    {
      Invariant.UpdateEventMetadataPreservesValid(Snapshot(), caller, now, eventId, metadataURI);
      var ev := EventAt(eventId);
      if !ev.eventExists {
        return Err(Revert(EventNotFound));
      }
      if caller != ev.organizer {
        return Err(Revert(OnlyOrganizerMetadata));
      }
      if ev.cancelled {
        return Err(Revert(EventIsCancelled));
      }
      if now >= ev.endDate {
        return Err(Revert(EventHasEnded));
      }
      events := events[eventId := ev.(metadataURI := metadataURI)];
      r := Ok(EventMetadataUpdated(eventId, metadataURI));
    }

    method CancelEvent(caller: Address, eventId: nat) returns (r: Outcome)
      requires Valid()
      modifies this
      ensures Valid()
      ensures Ledger.Transition(r, Snapshot()) == Ledger.CancelEvent(old(Snapshot()), caller, eventId)
    {
      Invariant.CancelEventPreservesValid(Snapshot(), caller, eventId);
      var ev := EventAt(eventId);
      if !ev.eventExists {
        return Err(Revert(EventNotFound));
      }
      if caller != ev.organizer {
        return Err(Revert(OnlyOrganizerCancel));
      }
      if ev.cancelled {
        return Err(Revert(EventIsCancelled));
      }
      events := events[eventId := ev.(cancelled := true)];
      r := Ok(EventCancelled(eventId, caller));
    }

    method CreateTicket(caller: Address, eventId: nat, typeCode: nat, uri: string) returns (r: Outcome)
      requires Valid()
      modifies this
      ensures Valid()
      ensures Ledger.Transition(r, Snapshot()) == Ledger.CreateTicket(old(Snapshot()), caller, eventId, typeCode, uri)
    {
      Invariant.CreateTicketPreservesValid(Snapshot(), caller, eventId, typeCode, uri);
      var decoded := DecodeTicketType(typeCode);
      if decoded.None? {
        return Err(EnumOutOfRange);
      }
      var t := decoded.value;
      var ev := EventAt(eventId);
      if !ev.eventExists {
        return Err(Revert(EventNotFound));
      }
      if ev.cancelled {
        return Err(Revert(EventIsCancelled));
      }
      if IsPrivileged(t) && caller != ev.organizer {
        return Err(Revert(OnlyOrganizerPrivileged));
      }
      if t == Organizer {
        return Err(Revert(InvalidTicketType));
      }
      if TicketIdOf(eventId, caller) != 0 {
        return Err(Revert(AlreadyHasTicket));
      }
      if caller == ZeroAddress {
        return Err(InvalidReceiver(caller));
      }
      var ticketId := Mint(eventId, caller, t, uri);
      r := Ok(TicketCreated(ticketId, eventId, caller, t));
    }

    method CreateTicketFor(caller: Address, eventId: nat, to: Address, typeCode: nat, uri: string) returns (r: Outcome)
      requires Valid()
      modifies this
      ensures Valid()
      ensures Ledger.Transition(r, Snapshot()) == Ledger.CreateTicketFor(old(Snapshot()), caller, eventId, to, typeCode, uri)
    {
      Invariant.CreateTicketForPreservesValid(Snapshot(), caller, eventId, to, typeCode, uri);
      var decoded := DecodeTicketType(typeCode);
      if decoded.None? {
        return Err(EnumOutOfRange);
      }
      var t := decoded.value;
      var ev := EventAt(eventId);
      if !ev.eventExists {
        return Err(Revert(EventNotFound));
      }
      if caller != ev.organizer {
        return Err(Revert(OnlyOrganizerForOthers));
      }
      if !IsPrivileged(t) {
        return Err(Revert(OnlyPrivilegedForOthers));
      }
      if ev.cancelled {
        return Err(Revert(EventIsCancelled));
      }
      if TicketIdOf(eventId, to) != 0 {
        return Err(Revert(AlreadyHasTicket));
      }
      if to == ZeroAddress {
        return Err(InvalidReceiver(to));
      }
      var ticketId := Mint(eventId, to, t, uri);
      r := Ok(TicketCreated(ticketId, eventId, to, t));
    }

    method UpdateTicketType(caller: Address, eventId: nat, user: Address, typeCode: nat) returns (r: Outcome)
      requires Valid()
      modifies this
      ensures Valid()
      ensures Ledger.Transition(r, Snapshot()) == Ledger.UpdateTicketType(old(Snapshot()), caller, eventId, user, typeCode)
    {
      Invariant.UpdateTicketTypePreservesValid(Snapshot(), caller, eventId, user, typeCode);
      var decoded := DecodeTicketType(typeCode);
      if decoded.None? {
        return Err(EnumOutOfRange);
      }
      var newType := decoded.value;
      var ev := EventAt(eventId);
      var ticketId := TicketIdOf(eventId, user);
      var tk := TicketAt(ticketId);
      if !ev.eventExists {
        return Err(Revert(EventNotFound));
      }
      if caller != ev.organizer {
        return Err(Revert(OnlyOrganizerUpdate));
      }
      if ev.cancelled {
        return Err(Revert(EventIsCancelled));
      }
      if newType == Organizer {
        return Err(Revert(InvalidTicketType));
      }
      if ticketId == 0 {
        return Err(Revert(UserHasNoTicket));
      }
      if tk.ticketType == Organizer {
        return Err(Revert(CannotModifyOrganizer));
      }
      if tk.used {
        return Err(Revert(TicketAlreadyUsed));
      }
      tickets := tickets[ticketId := tk.(ticketType := newType)];
      r := Ok(TicketTypeUpdated(ticketId, user, tk.ticketType, newType));
    }

    method ResellTicket(caller: Address, eventId: nat, to: Address) returns (r: Outcome)
      requires Valid()
      modifies this
      ensures Valid()
      ensures Ledger.Transition(r, Snapshot()) == Ledger.ResellTicket(old(Snapshot()), caller, eventId, to)
    {
      Invariant.ResellTicketPreservesValid(Snapshot(), caller, eventId, to);
      var ev := EventAt(eventId);
      var ticketId := TicketIdOf(eventId, caller);
      var tk := TicketAt(ticketId);
      if !ev.eventExists {
        return Err(Revert(EventNotFound));
      }
      if ticketId == 0 {
        return Err(Revert(CallerHasNoTicket));
      }
      if tk.ticketType != Standard {
        return Err(Revert(OnlyStandardResold));
      }
      if ev.cancelled {
        return Err(Revert(EventIsCancelled));
      }
      if TicketIdOf(eventId, to) != 0 {
        return Err(Revert(RecipientHasTicket));
      }
      if tk.used {
        return Err(Revert(TicketAlreadyUsed));
      }
      if to == ZeroAddress {
        return Err(InvalidReceiver(to));
      }
      owners := owners[ticketId := to];
      ticketIdByEventAndOwner := ticketIdByEventAndOwner - {(eventId, caller)};
      ticketIdByEventAndOwner := ticketIdByEventAndOwner[(eventId, to) := ticketId];
      r := Ok(TicketResold(ticketId, eventId, caller, to));
    }

    method RemoveTicket(caller: Address, eventId: nat, user: Address) returns (r: Outcome)
      requires Valid()
      modifies this
      ensures Valid()
      ensures Ledger.Transition(r, Snapshot()) == Ledger.RemoveTicket(old(Snapshot()), caller, eventId, user)
    {
      Invariant.RemoveTicketPreservesValid(Snapshot(), caller, eventId, user);
      var ev := EventAt(eventId);
      var ticketId := TicketIdOf(eventId, user);
      var tk := TicketAt(ticketId);
      if !ev.eventExists {
        return Err(Revert(EventNotFound));
      }
      if caller != ev.organizer {
        return Err(Revert(OnlyOrganizerRemove));
      }
      if ev.cancelled {
        return Err(Revert(EventIsCancelled));
      }
      if ticketId == 0 {
        return Err(Revert(UserHasNoTicket));
      }
      if !IsPrivileged(tk.ticketType) {
        return Err(Revert(OnlyPrivilegedRemoved));
      }
      owners := owners - {ticketId};
      tokenURIs := tokenURIs - {ticketId};
      ticketIdByEventAndOwner := ticketIdByEventAndOwner - {(eventId, user)};
      r := Ok(TicketRemoved(ticketId, eventId, user, tk.ticketType));
    }

    method UseTicket(caller: Address, ticketId: nat) returns (r: Outcome)
      requires Valid()
      modifies this
      ensures Valid()
      ensures Ledger.Transition(r, Snapshot()) == Ledger.UseTicket(old(Snapshot()), caller, ticketId)
    {
      Invariant.UseTicketPreservesValid(Snapshot(), caller, ticketId);
      var tk := TicketAt(ticketId);
      if EventAt(tk.eventId).cancelled {
        return Err(Revert(EventIsCancelled));
      }
      if ticketId !in owners {
        return Err(NonexistentToken(ticketId));
      }
      if owners[ticketId] != caller {
        return Err(Revert(OnlyOwnerUse));
      }
      if tk.used {
        return Err(Revert(TicketAlreadyUsed));
      }
      tickets := tickets[ticketId := tk.(used := true)];
      r := Ok(TicketUsed(ticketId, caller));
    }

    /** Direct ERC-721 transfers are refused; storage is never touched. */
    method TransferFrom(caller: Address, from: Address, to: Address, ticketId: nat) returns (r: Outcome)
      ensures Ledger.Transition(r, Snapshot()) == Ledger.TransferFrom(Snapshot(), caller, from, to, ticketId)
      ensures r == Err(Revert(TransfersDisabled))
    {
      r := Err(Revert(TransfersDisabled));
    }
  }
}
